=== FILE: README.md ===
# selfbot message sender, modelled in Dafny

The repository sends Discord messages on a user's behalf. This project models
the four parts that decide what gets sent and what gets reported:

- **The batch handler** (`frontend/functions/api/send-message.js`). It
  validates the request, then sends `count` messages to a channel. Each
  message is a fixed text or a random quote. Sends are separated by a random
  pause from a `[minDelayMs, maxDelayMs]` window. The handler reports how many
  messages were sent. A rejected first send is reported with Discord's status
  and reason, unless rendering the reason or answering with that status
  throws, which gives a 500.
- **The single handler** (`functions/api/send-message.js`). It makes one
  send and reports the content that went out.
- **The selfbot task** (`backend/discordClient.js`). It logs in, fetches the
  channel, then sends `count` messages with a fixed pause. It reports
  progress through callbacks and can be stopped from outside. The task also
  owns the `activeOperations` registry of stoppable tasks and
  `generateRandomText`.
- **The task server** (`backend/server.js`). Its in-memory `activeTasks` map
  stores one status record per task. The start, status and stop endpoints
  read and write that map, and so do the task's callbacks.

Module layout:

| module | what it holds |
|---|---|
| `Js` | the JavaScript defaults, truthiness, parsed JSON values and their string forms |
| `Randomness` | `Math.random()` and the `Math.floor(Math.random() * n)` idioms built on it |
| `Request` | the parsed request body and its missing-field checks |
| `Discord` | Discord's replies and the error text built from them |
| `Quotes` | `getRandomQuote` |
| `Http` | the handlers' JSON responses |
| `BatchSend`, `SingleSend` | the two handlers |
| `RandomText` | `generateRandomText` |
| `Selfbot`, `SelfbotTrace` | one selfbot task, and the events it emits |
| `Registry` | `activeOperations` |
| `TaskServer` | `activeTasks` and the three endpoints |
| `TaskLifecycle` | one task's whole life, as the status endpoint sees it |

Modelling choices:

- **Outside calls.** Network calls and random draws are not executed.
  - Each world datatype holds oracles that give, per attempt, what Discord,
    the quote API or `Math.random()` returns.
  - The text an attempt sends when randomized is itself a world field. The
    constructors `BatchSend.FetchedWorld` and `Selfbot.DrawnWorld` compute it
    from the quote API's answers or the random draws. `FetchedPayload` and
    `DrawnPayload` state what it then is.
  - A random draw is an exact fraction in `[0, 1)`.
  - `Math.floor(d * n)` is `d.num * n / d.den`. Every index and every value
    in a window is reachable by some draw, and the lemmas say so.
- **Stops.** A stop can only run while the task waits at an `await`,
  because the task and the stop handler share one thread.
  - The awaits are numbered on a clock: 0 for setup, `2i+1` for send `i`,
    `2i+2` for the sleep after send `i`.
  - The moment of the stop is one optional clock reading, `stopAt`.
- **Server state.** `activeTasks` is a map from task ids to records.
  `activeOperations` is a set of task ids.

Two facts about the code shape the model:

- **No record is final.** Every callback overwrites the task's record
  without looking at it, so `stopped` and `completed` can be replaced.
  - `TaskServer.NoRecordIsFinal` proves this.
  - `TaskLifecycle.StopDuringSendShowsRunning` proves the case where a
    stop arrives while message j is being sent, and that send and every one
    before it is delivered: the task is acknowledged as stopped, but its
    status stays `running`, with j + 1 of `count` sent, for good. If the
    interrupted send throws instead, the record ends as `error`.
- **No pause or resume.** A task can only be started, read and stopped.

## Model

| member | source | states |
|---|---|---|
| `Request.MissingBasics` | functions/api/send-message.js:27-32 | A request is refused exactly when one of its required strings is empty or absent. Token and channel are always required, and the message is required unless `randomize` is set. |
| `Request.MissingBasicsOrCount` | frontend/functions/api/send-message.js:29-34 | The batch endpoint refuses everything the single endpoint refuses. Beyond that, it refuses exactly the requests without a `count`. |
| `Request.RandomizedMessageIsOptional` | backend/server.js:18-20 | With `randomize` set, changing the message never changes the validation verdict. |
| `Js.DecimalRoundTrip` | functions/api/send-message.js:57 | The decimal form in which a number is interpolated reads back as the number. |
| `Randomness.Scale` | frontend/functions/api/send-message.js:18 | `Math.floor(Math.random() * n)` is a valid index below `n` (and 0 for `n = 0`). |
| `Randomness.ScaleReachesEveryIndex` | frontend/functions/api/send-message.js:18 | Every index below `n` is the result of some draw. |
| `Randomness.Between` | frontend/functions/api/send-message.js:81 | The random delay lies in `[minDelayMs, maxDelayMs]`, both ends included. |
| `Randomness.BetweenReachesEveryValue` | frontend/functions/api/send-message.js:81 | Every delay in the window, both ends included, is drawn by some draw. |
| `Discord.FriendlyError` | frontend/functions/api/send-message.js:64-70 | When the body parses to an object whose `message` is truthy, the reason is that message's string form, and there is none when forming it throws. In every other case the reason is the HTTP status text: a body that is not JSON, `null`, a non-object, no `message`, or a falsy one (`null`, `false`, `0`, `""`). |
| `Discord.StringMessageIsReason` | functions/api/send-message.js:51-55 | A non-empty string `message` is the reason, whatever else the body holds. |
| `Discord.NumberMessageIsDecimal` | functions/api/send-message.js:51-57 | A positive numeric `message` is the reason, written in decimal, and it reads back as the number. |
| `Discord.EmptyArrayMessageHidesStatusText` | functions/api/send-message.js:51-57 | `{"message": []}` wins over the status text, because an empty array is truthy. It renders as the empty string. |
| `Discord.OwnToStringThrows` | functions/api/send-message.js:51-57 | `{"message": {"toString": 1}}` has a truthy message whose string form throws, so there is no reason. |
| `Discord.OwnToStringInArrayThrows` | functions/api/send-message.js:51-57 | The same object inside an array throws too, because joining the array renders each element. |
| `Discord.ErrorText` | frontend/functions/api/send-message.js:70 | The error text is the fixed prefix followed by the reason, and nothing else. |
| `Discord.ReasonOf` | frontend/functions/api/send-message.js:70 | Reading a reason back succeeds exactly on texts that carry the prefix. |
| `Discord.ReasonOfErrorText` | frontend/functions/api/send-message.js:70 | A client can recover Discord's reason from the error text (round trip). |
| `Discord.ErrorTextInjective` | frontend/functions/api/send-message.js:70 | Different reasons give different error texts. |
| `Discord.RejectionResponse` | frontend/functions/api/send-message.js:63-73 | When the reason can be formed and `new Response` accepts the status, the response has Discord's status and the reason can be read back from its error text. Otherwise it is the outer `catch`'s 500. It is never a success unless Discord's status is 2xx. |
| `Quotes.RandomQuote` | frontend/functions/api/send-message.js:11-20 | A fetched quote is `"content" — author`. An unreachable API gives one of the seven fallback quotes. The result is never empty. |
| `Quotes.EveryFallbackReachable` | frontend/functions/api/send-message.js:18 | Each fallback quote is picked by some draw. |
| `BatchSend.FetchedPayload` | frontend/functions/api/send-message.js:45 | When quote texts come from the quote API's answers, a randomized attempt sends the attributed quote, or a fallback quote when the API was unreachable. A plain attempt sends the message. |
| `BatchSend.SendLoop` | frontend/functions/api/send-message.js:43-84 | Attempt k sends payload k and gets reply k. Every attempt but the last was accepted. A pause follows exactly the accepted non-final sends, and it lies within the window. The exit records the messages sent, the status, status text and body of a rejected first send, or a thrown fetch. |
| `BatchSend.Handle` | frontend/functions/api/send-message.js:24-97 | Unparsable JSON gives a 500. Missing fields or a window with min ≥ max give a 400 before any send. Otherwise at most `count` attempts are made, with payload, pause and acceptance as in `SendLoop`. A success reports `total == count` and the number of accepted sends. A rejected first send gives one attempt and a failure: Discord's status with the friendly reason when that reason can be formed and the status answered, and a 500 otherwise. |
| `BatchSend.AllAccepted` | frontend/functions/api/send-message.js:78-89 | With every send accepted, exactly `max(count, 0)` attempts are made, and the response is 200 with `sent == max(count, 0)`. |
| `BatchSend.LaterSendRejected` | frontend/functions/api/send-message.js:59-75 | A rejection at attempt j > 0 ends the loop there, and the response is 200 with `sent == j`. |
| `BatchSend.SendThrows` | frontend/functions/api/send-message.js:91-96 | A fetch that throws at attempt j gives a 500, even when j messages already went out. |
| `SingleSend.Handle` | functions/api/send-message.js:22-74 | Unparsable JSON gives a 500 and missing fields a 400, with no send. A valid request makes exactly one attempt, with the message or a random quote. Acceptance gives 200 with that content. A rejection gives Discord's status with a recoverable friendly reason, or a 500 when forming the reason throws or `new Response` refuses the status. A thrown fetch gives 500. Success happens exactly when the request is valid and Discord accepts. |
| `SingleSend.Answer` | functions/api/send-message.js:47-74 | Acceptance gives 200 with the content sent, and a thrown fetch a 500. A rejection gives Discord's status with a recoverable friendly reason, or a 500 when forming the reason throws or the status cannot be answered. The response is a success exactly when Discord accepted. |
| `SingleSend.UnrenderableReasonIsInternalError` | functions/api/send-message.js:51-71 | A rejection whose `message` is an object with its own `toString` gets a 500, not Discord's status. |
| `SingleSend.AgreesWithBatchOfOne` | functions/api/send-message.js:22-74 | The single handler sends what the batch handler sends for `count = 1`, and it fails the same way. Only the success body differs. |
| `RandomText.AlphabetLayout` | backend/discordClient.js:15 | The alphabet has 63 characters: upper case, lower case, digits, then the space. |
| `RandomText.AlphabetWhitespaceIsSpace` | backend/discordClient.js:15 | The space is the alphabet's only whitespace character. |
| `RandomText.FallbackOutsideAlphabet` | backend/discordClient.js:20 | The fallback text contains `_`, which the alphabet lacks. |
| `RandomText.PickChar` | backend/discordClient.js:18 | Every drawn character is an alphabet character. |
| `RandomText.Raw` | backend/discordClient.js:16-19 | The untrimmed text has `max(length, 0)` characters, and character i comes from draw i. |
| `RandomText.TrimStart` | backend/discordClient.js:20 | Trimming the front cuts only whitespace and stops at the first non-whitespace character. |
| `RandomText.TrimEnd` | backend/discordClient.js:20 | Trimming the back cuts only whitespace and stops at the last non-whitespace character. |
| `RandomText.Trim` | backend/discordClient.js:20 | The trimmed text keeps only characters of the input and is no longer. It is empty exactly when the input is all whitespace. Otherwise it starts and ends with non-whitespace. |
| `RandomText.TrimIsSlice` | backend/discordClient.js:20 | The trimmed text is a contiguous slice of the input with only whitespace before and after it. |
| `RandomText.TrimEmptyIffAllSpaces` | backend/discordClient.js:17-20 | Trimming the draw leaves nothing exactly when every drawn character is the space. |
| `RandomText.Generate` | backend/discordClient.js:14-21 | The text is never empty. It is either the fallback, or alphabet characters, no longer than asked, with no whitespace at either end. The fallback appears exactly when every draw picked the space. |
| `RandomText.GenerateTrimsDraw` | backend/discordClient.js:16-21 | Any text other than the fallback is the drawn characters with only the leading and trailing whitespace cut. |
| `RandomText.MessageLength` | backend/discordClient.js:67 | A randomized selfbot message asks for 10 to 39 characters. |
| `RandomText.EveryMessageLengthReachable` | backend/discordClient.js:67 | Every length from 10 to 39 is asked for by some draw. |
| `Selfbot.DrawnPayload` | backend/discordClient.js:67 | When texts come from the random draws, a randomized message is `generateRandomText` of 10 to 39 requested characters: never empty, and either the fallback or alphabet characters no longer than asked. A plain message is sent as given. |
| `Selfbot.Loop` | backend/discordClient.js:61-78 | Each pass sends its own payload and meets its own delivery. The stop flag was clear when each pass began. A pass pauses for `delayMs` exactly when its send was delivered, was not the last, and no stop came during it. Every pass but the last paused. A break happens only on a raised flag, and a throw only on a failed send. |
| `Selfbot.FirstSendThrowFails` | backend/discordClient.js:61-86 | When Discord's first send throws and no stop came during setup, the task makes that one attempt and ends in `onError` with the thrown message. |
| `Selfbot.LandedIffRaised` | backend/discordClient.js:61-83 | A stop is seen by the run exactly when it arrived no later than the run's last await. |
| `Selfbot.Execute` | backend/discordClient.js:26-92 | At most `count` messages are sent. Pass k sends message k's payload and meets Discord's k-th answer, and it pauses for `delayMs` exactly when that send was delivered, was not the last and saw no stop. Every pass but the last paused. A setup failure gives `onError` with the code's message, before any send. `onComplete` fires exactly when setup succeeded, all `count` sends were delivered and no stop arrived. `onError` fires exactly when setup or the last send threw. Neither fires exactly when a stop was seen. |
| `SelfbotTrace.RunIsShaped` | backend/discordClient.js:61-78 | Every pass but the last was delivered, paused and not stopped. A stopped send is never followed by a pause. |
| `SelfbotTrace.ShapedRunCallbacks` | backend/discordClient.js:80-86 | In any run of that shape, no callback fires before the end. `onComplete` appears exactly for a completed run, and `onError(m)` exactly for a run that failed with `m`. |
| `SelfbotTrace.CallbacksAreExclusive` | backend/discordClient.js:80-86 | `onComplete` and `onError` never both fire. Whichever fires is the task's last event, and it fires exactly for its outcome. |
| `SelfbotTrace.ShapedRunStopIsFinal` | backend/discordClient.js:62-77 | In any run of that shape where a setup stop means no pass ran, nothing is sent or slept after a stop, and no second stop arrives. |
| `SelfbotTrace.NothingStartsAfterStop` | backend/discordClient.js:62-77 | After a stop arrives, no message is sent, no sleep happens and no second stop arrives. |
| `SelfbotTrace.RunProgress` | backend/discordClient.js:69-71 | A run reports one progress event per delivered send, numbered from 1. |
| `SelfbotTrace.ProgressCountsUp` | backend/discordClient.js:71 | `onProgress` reports `sent` = 1, 2, … with no gap, and always `total == count`. It reports once per delivered message and never more than `count` times. |
| `Registry.Register` | backend/discordClient.js:30-35 | Starting a task registers it and leaves every other entry alone. |
| `Registry.Stop` | backend/discordClient.js:97-105 | A stop succeeds exactly when the task is registered, and it leaves the task unregistered. |
| `Registry.Cleanup` | backend/discordClient.js:87-91 | The task's `finally` unregisters it and nothing else. |
| `Registry.SecondStopFails` | backend/discordClient.js:97-105 | A second stop right after the first fails and changes nothing. |
| `Registry.StopAfterCleanupFails` | backend/discordClient.js:90 | Once a task has cleaned up, a stop fails. |
| `TaskServer.Start` | backend/server.js:15-53 | An incomplete request gives a 400 and records nothing. A valid one registers the task and records it as started with `total == count` and `sent == 0`. No other task is touched. |
| `TaskServer.Status` | backend/server.js:55-61 | An unknown id gives a 404. A known id returns its stored record unchanged. |
| `TaskServer.Stop` | backend/server.js:63-72 | A registered task is unregistered and recorded as `stopped`. Otherwise the reply is a 404 and the state is untouched. |
| `TaskServer.Written` | backend/server.js:34-44 | A callback never writes `started` or `stopped`, and the record it writes tells which callback wrote it, with its arguments. |
| `TaskServer.Notify` | backend/server.js:34-44 | A callback's write leaves the task holding the callback's record. Every other task's record is as it was, and the registry is untouched. |
| `TaskServer.NoRecordIsFinal` | backend/server.js:34-44 | A callback's write does not depend on what the record held before, and it touches no other record. |
| `TaskServer.LateCallbackOverwrites` | backend/server.js:34-44 | A callback after `stopped` or `completed` replaces it. A late progress report shows `running` again. |
| `TaskServer.StartThenStatus` | backend/server.js:47 | A started task is readable at once as started with `sent == 0`. |
| `TaskServer.StartStopStop` | backend/server.js:63-72 | After a start, the first stop succeeds and a second fails, leaving `stopped` in place. |
| `TaskLifecycle.FinalRecord` | backend/discordClient.js:61-91 | The record a finished task leaves: `completed` exactly for a completed run, and `error` with the message exactly for a failed one. It is `running`, with as many sent as passes made, exactly when the run halted on a stop that came during its last pass's send. Otherwise it is `stopped`. It is never `started`. `RunLastWrite` shows this is the last record the task's events write. |
| `TaskLifecycle.ReplayKeepsLastWrite` | backend/server.js:34-72 | Replaying a task's events leaves its record equal to the last record written, and no other record changes. |
| `TaskLifecycle.LastWriteConcat` | backend/server.js:34-44 | In a concatenation, the last write is the second part's write, if it has one. |
| `TaskLifecycle.LastWriteOfPass` | backend/discordClient.js:69-77 | A delivered pass ends by writing `stopped` when a stop came during its sleep. Otherwise it ends by writing its progress. |
| `TaskLifecycle.LastWriteOfPasses` | backend/discordClient.js:61-78 | The loop's last write is its last pass's last write. |
| `TaskLifecycle.HaltedLastWrite` | backend/discordClient.js:61-83 | A stopped run ends by writing `stopped`, unless the stop came during the send of the run's last pass. In that case it ends by writing `running`. |
| `TaskLifecycle.ShapedRunLastWrite` | backend/discordClient.js:61-86 | The events of any run of that shape, where a halted run saw its stop land and every pass delivered, end by writing the run's final record. |
| `TaskLifecycle.RunLastWrite` | backend/discordClient.js:61-86 | Every run ends by writing its final record. |
| `TaskLifecycle.StartReplayFinish` | backend/server.js:15-72 | A valid start, then events with nothing after a stop, then the cleanup. Together they leave the last record written under the new id, change no other record, and answer a later stop with 404. |
| `TaskLifecycle.FinalStatus` | backend/server.js:15-72 | Once a task's `finally` has run, the status endpoint shows `completed`, `error` with the message, `stopped`, or, for a stop during the send of the run's last pass, `running`. Other tasks' records are unchanged, and a further stop gets a 404. |
| `TaskLifecycle.StopDuringSendPasses` | backend/discordClient.js:61-77 | With every send delivered and a stop during send j, the loop makes exactly j + 1 passes, and the last of them saw the stop. |
| `TaskLifecycle.StopDuringSendRun` | backend/discordClient.js:69-83 | With every send delivered and a stop raised during send j, the final record is `running` with j + 1 of `count` sent. |
| `TaskLifecycle.StopDuringSendShowsRunning` | backend/discordClient.js:69-83 | A stop that arrives during send j of `count` delivered sends leaves the status `running`, with j + 1 of `count` sent, for good. For the last send, that is `sent == total`. |

## Left out

- Network, Discord and quote API calls are oracle parameters, not calls. Log output (`console.log`, `console.error`) is not modelled.
- The 2-second warm-up sleep and the pause lengths are not timed. Only the order of events matters to the model.
- Whether `client.destroy()` makes an in-flight send or login throw belongs to the Discord library. The send and setup oracles decide it.
- `BatchSend.Handle`: requests are modelled after JSON parsing, as strings, one optional integer `count` and integer delays.
  - `Number()` coercion, `NaN`, non-integer or string-valued `count` and delays, and non-string fields are not modelled.
  - Comparisons such as `i < count` are exact integer comparisons.
- `TaskServer.Start`: `count` and `delayMs` reach `startSendingMessages` unconverted from `req.body` (backend/server.js:16), but they are modelled as integers. So the model leaves out two cases:
  - `count: null` passes the `count === undefined` test and completes with nothing sent.
  - A fractional `count` runs ⌈count⌉ passes while `total` echoes the raw value.
- `Selfbot.Execute`: the same integer-only `count` and `delayMs` apply to the task. Its loop test `i < count` (backend/discordClient.js:61) is an exact integer comparison.
- The batch and single handlers: JSON serialisation, headers and the Cloudflare `Response` object are reduced to a status and a body datatype. The statuses `new Response` refuses (outside 200-599, and 204, 205 and 304, which cannot carry a body) make it throw, and the outer `catch` answers 500 (`Http.Constructible`). The runtime's own exceptions to that rule are not modelled.
- `Discord.FriendlyError`: JSON numbers are integers.
  - `String()` of an object is modelled as throwing exactly when the object has its own `toString` key. Parsed JSON holds no functions, so such a key can never be called. Other objects give `[object Object]`.
  - A fractional `message`, `-0`, and the exponent form that `String()` uses from 10^21 upward are not modelled.
  - Precision lost above 2^53 is not modelled either.
  - A `__proto__` key is treated like any other key.
- `RandomText.Trim`: the whitespace set is tab, line feed, vertical tab, form feed, carriage return, space, no-break space, byte order mark and the two Unicode line and paragraph separators. The other Unicode space separators that `String.prototype.trim` also strips are left out. This cannot affect generated text, whose only whitespace character is the space.
- `TaskServer.Start`: the task id is `Date.now()` as a number. Its string form and two starts in the same millisecond (which overwrite each other's entries) are not modelled separately.
  - The `try`/`catch` around the launch (lines 24-52) cannot fire before the first `await` and is not modelled.
- The `isStopped = true` in the task's `finally` (backend/discordClient.js:88) is not modelled. The flag is local to the finished task, and its registry entry is deleted two lines later, after `client.destroy()`, so nothing can read it afterwards.
- Concurrency beyond one stop per task: several tasks' events are not interleaved (they touch different keys). Repeated stop requests after the first are the 404 case of `TaskServer.Stop`.
- The Express app, CORS, dotenv, the port, `backend/test.js`, and the React front end (`App.jsx`, `Form.jsx`) are not part of this model.
- `functions/api/[[route]].js` (the pause/resume orchestrator backed by a key-value store) is not part of this model.

=== FILE: batch_send.dfy ===
/**
 * The batch send handler of the Cloudflare front end
 * (`frontend/functions/api/send-message.js`, `onRequestPost`): validate the
 * request, then send `count` messages to one channel through the Discord
 * REST API with a random pause between consecutive sends.
 *
 * Every outside effect is an input: Discord's reply to attempt i, the quote
 * text `getRandomQuote` gives attempt i (FetchedWorld computes it from the
 * quote API's answer), and the `Math.random()` draw behind the pause after
 * send i. The handler is then a pure function from the request and these
 * inputs to the list of attempts it makes and the response it returns.
 */
module BatchSend {
  import opened Js
  import opened Randomness
  import opened Request
  import opened Http
  import Discord
  import opened Quotes

  const DefaultMinDelayMs: int := 2000
  const DefaultMaxDelayMs: int := 5000

  /** The outcomes of every outside call the handler may make, indexed by loop iteration. */
  datatype World = World(
    reply: nat -> Discord.Reply,
    quoteText: nat -> string,
    delay: nat -> Draw)

  /** The world in which attempt i's quote text is `getRandomQuote` applied to the quote API's i-th answer. */
  function FetchedWorld(reply: nat -> Discord.Reply, quote: nat -> QuoteReply, delay: nat -> Draw): World
  {
    World(reply, (i: nat) => RandomQuote(quote(i)), delay)
  }

  /** A request that passed validation, with the delay defaults applied. */
  datatype Plan = Plan(message: string, count: int, minDelayMs: int, maxDelayMs: int, randomize: bool)

  /** One iteration of the `for` loop: what was sent, what Discord said, and the pause that followed. */
  datatype Step = Step(payload: string, reply: Discord.Reply, pause: Option<int>)

  /** How the loop ended. */
  datatype Exit =
    | Finished(sent: int)                        // `i < count` became false
    | Stopped(sent: int)                         // `break` after a later rejection
    | FirstRejected(status: int, statusText: string, body: Discord.ErrorBody) // early `return` on a rejected first send
    | Crashed                                    // `fetch` threw: the outer `catch`

  datatype Outcome = Outcome(steps: seq<Step>, response: Response)

  function PlanOf(f: Fields): Plan
    requires f.count.Some?
  {
    Plan(f.message, f.count.value,
         DefaultTo(f.minDelayMs, DefaultMinDelayMs),
         DefaultTo(f.maxDelayMs, DefaultMaxDelayMs),
         f.randomize)
  }

  /** `Number(minDelayMs) >= Number(maxDelayMs)` is false. */
  predicate ValidWindow(p: Plan)
  {
    p.minDelayMs < p.maxDelayMs
  }

  /** The request reaches the send loop. */
  predicate Admitted(f: Fields)
  {
    !MissingBasicsOrCount(f) && ValidWindow(PlanOf(f))
  }

  /** `randomize ? await getRandomQuote() : message` for iteration i. */
  function Payload(p: Plan, w: World, i: nat): string
  {
    if p.randomize then w.quoteText(i) else p.message
  }

  /**
   * In a fetched world, a randomized attempt sends the attributed quote when
   * the quote API answered, and one of the fallback quotes when it did not;
   * either way the text is not empty.
   */
  lemma FetchedPayload(p: Plan, reply: nat -> Discord.Reply, quote: nat -> QuoteReply, delay: nat -> Draw, i: nat)
    ensures var text := Payload(p, FetchedWorld(reply, quote, delay), i);
            && (p.randomize ==> text == RandomQuote(quote(i)) && |text| > 0)
            && (p.randomize && quote(i).Fetched? ==> text == Attributed(quote(i).content, quote(i).author))
            && (p.randomize && quote(i).Unavailable? ==> text in FallbackQuotes)
            && (!p.randomize ==> text == p.message)
  {
  }

  /** Discord accepted every attempt before index j. */
  ghost predicate AcceptedBefore(w: World, j: int)
  {
    forall k: nat :: k < j ==> Discord.Ok(w.reply(k))
  }

  /**
   * What attempt k looks like: it sends payload k, Discord's answer is
   * `w.reply(k)`, and a pause follows exactly when the send was accepted and
   * was not the last; the pause lies in the delay window.
   */
  predicate WellFormedStep(p: Plan, w: World, k: nat, s: Step)
  {
    && s.payload == Payload(p, w, k)
    && s.reply == w.reply(k)
    && (s.pause.Some? <==> Discord.Ok(s.reply) && k < p.count - 1)
    && (s.pause.Some? ==> p.minDelayMs <= s.pause.value <= p.maxDelayMs)
  }

  /**
   * The `for` loop from iteration i with `sentCount == sent`. Every attempt
   * is well formed and every attempt but the last was accepted; the exit
   * says why the loop ended.
   */
  function SendLoop(p: Plan, w: World, i: nat, sent: int): (r: (seq<Step>, Exit))
    requires ValidWindow(p)
    decreases p.count - i
    ensures i >= p.count ==> r.0 == [] && r.1 == Finished(sent)
    ensures i < p.count ==> 0 < |r.0| <= p.count - i
    ensures forall k :: 0 <= k < |r.0| ==> WellFormedStep(p, w, i + k, r.0[k])
    ensures forall k :: 0 <= k < |r.0| - 1 ==> Discord.Ok(r.0[k].reply)
    ensures r.1.Finished? ==>
              |r.0| == NonNeg(p.count - i) && r.1.sent == sent + |r.0|
              && forall k :: 0 <= k < |r.0| ==> Discord.Ok(r.0[k].reply)
    ensures r.1.Stopped? ==>
              |r.0| > 0 && i + |r.0| - 1 > 0 && Discord.Rejected(r.0[|r.0| - 1].reply)
              && r.1.sent == sent + |r.0| - 1
    ensures r.1.FirstRejected? ==>
              i == 0 && |r.0| == 1 && Discord.Rejected(r.0[0].reply)
              && r.1 == FirstRejected(r.0[0].reply.status, r.0[0].reply.statusText, r.0[0].reply.body)
    ensures r.1.Crashed? ==> |r.0| > 0 && r.0[|r.0| - 1].reply.NetworkFailure?
  {
    if i >= p.count then ([], Finished(sent))
    else
      var payload := Payload(p, w, i);
      var reply := w.reply(i);
      if reply.NetworkFailure? then ([Step(payload, reply, None)], Crashed)
      else if !Discord.Ok(reply) then
        var exit := if i == 0 then FirstRejected(reply.status, reply.statusText, reply.body)
                    else Stopped(sent);
        ([Step(payload, reply, None)], exit)
      else
        var pause := if i < p.count - 1
                     then Some(Between(w.delay(i), p.minDelayMs, p.maxDelayMs))
                     else None;
        var rest := SendLoop(p, w, i + 1, sent + 1);
        var step := Step(payload, reply, pause);
        PrependAccepted(p, w, i, step, rest.0);
        ([step] + rest.0, rest.1)
  }

  /** Helper for SendLoop: an accepted attempt i in front of well-formed attempts from i + 1. */
  lemma PrependAccepted(p: Plan, w: World, i: nat, step: Step, rest: seq<Step>)
    requires WellFormedStep(p, w, i, step) && Discord.Ok(step.reply)
    requires forall k :: 0 <= k < |rest| ==> WellFormedStep(p, w, i + 1 + k, rest[k])
    requires forall k :: 0 <= k < |rest| - 1 ==> Discord.Ok(rest[k].reply)
    ensures var steps := [step] + rest;
            && (forall k :: 0 <= k < |steps| ==> WellFormedStep(p, w, i + k, steps[k]))
            && (forall k :: 0 <= k < |steps| - 1 ==> Discord.Ok(steps[k].reply))
            && ((forall k :: 0 <= k < |rest| ==> Discord.Ok(rest[k].reply)) ==>
                  forall k :: 0 <= k < |steps| ==> Discord.Ok(steps[k].reply))
            && (|rest| > 0 ==> steps[|steps| - 1] == rest[|rest| - 1])
  {
    var steps := [step] + rest;
    forall k | 1 <= k < |steps| ensures steps[k] == rest[k - 1] { }
  }

  /** The response for a loop that ran. */
  function Respond(p: Plan, exit: Exit): Response
  {
    match exit
    case Finished(sent) => Response(200, BatchSummary(sent, p.count))
    case Stopped(sent) => Response(200, BatchSummary(sent, p.count))
    case FirstRejected(status, statusText, body) => Discord.RejectionResponse(status, statusText, body)
    case Crashed => InternalServerError()
  }

  /**
   * `onRequestPost`. Malformed JSON, missing fields and a bad delay window
   * are refused before any send; for an admitted request, the attempts
   * follow the send loop's contract, and a rejected first send is reported
   * with Discord's status and reason, or as a 500 when the reason cannot be
   * rendered or the status cannot be answered. The remaining outcomes are
   * the lemmas below.
   */
  function Handle(req: Incoming, w: World): (r: Outcome)
    ensures req.Unparsable? ==> r == Outcome([], InternalServerError())
    ensures req.Json? && MissingBasicsOrCount(req.fields) ==>
              r == Outcome([], Response(400, Failure(MissingFieldsError)))
    ensures req.Json? && !MissingBasicsOrCount(req.fields) && !ValidWindow(PlanOf(req.fields)) ==>
              r == Outcome([], Response(400, Failure(DelayWindowError)))
    ensures !(req.Json? && Admitted(req.fields)) ==> r.steps == [] && !IsSuccess(r.response)
    ensures req.Json? && Admitted(req.fields) ==>
              var p := PlanOf(req.fields);
              && |r.steps| <= NonNeg(p.count)
              && (forall k :: 0 <= k < |r.steps| ==> WellFormedStep(p, w, k, r.steps[k]))
              && (forall k :: 0 <= k < |r.steps| - 1 ==> Discord.Ok(r.steps[k].reply))
              && (IsSuccess(r.response) ==>
                    r.response.body.BatchSummary? && r.response.body.total == p.count
                    && r.response.body.sent == |r.steps| - (if |r.steps| > 0 && !Discord.Ok(r.steps[|r.steps| - 1].reply) then 1 else 0))
    // the first send rejected: no success response; Discord's status and reason when both can be answered, else a 500
    ensures req.Json? && Admitted(req.fields) && PlanOf(req.fields).count > 0 && Discord.Rejected(w.reply(0)) ==>
              var reply := w.reply(0);
              && |r.steps| == 1
              && r.response == Discord.RejectionResponse(reply.status, reply.statusText, reply.body)
              && (Discord.FriendlyError(reply.statusText, reply.body).Some? && Constructible(reply.status) ==>
                    r.response.status == reply.status
                    && Discord.ReasonOf(r.response.body.error) == Discord.FriendlyError(reply.statusText, reply.body))
              && (Discord.FriendlyError(reply.statusText, reply.body).None? || !Constructible(reply.status) ==>
                    r.response == InternalServerError())
              && !IsSuccess(r.response)
  {
    match req
    case Unparsable => Outcome([], InternalServerError())
    case Json(f) =>
      if MissingBasicsOrCount(f) then Outcome([], Response(400, Failure(MissingFieldsError)))
      else if !ValidWindow(PlanOf(f)) then Outcome([], Response(400, Failure(DelayWindowError)))
      else
        var p := PlanOf(f);
        var (steps, exit) := SendLoop(p, w, 0, 0);
        Outcome(steps, Respond(p, exit))
  }

  /** Every send accepted: a 200 reporting `count` sent (0 when count <= 0), after `count` attempts. */
  lemma AllAccepted(req: Incoming, w: World)
    requires req.Json? && Admitted(req.fields)
    requires AcceptedBefore(w, PlanOf(req.fields).count)
    ensures var p := PlanOf(req.fields);
            && |Handle(req, w).steps| == NonNeg(p.count)
            && Handle(req, w).response == Response(200, BatchSummary(NonNeg(p.count), p.count))
  {
    var p := PlanOf(req.fields);
    var (steps, exit) := SendLoop(p, w, 0, 0);
    if |steps| > 0 {
      assert WellFormedStep(p, w, |steps| - 1, steps[|steps| - 1]);
    }
  }

  /** A later send j > 0 rejected: the loop stops there and reports j messages sent, with status 200. */
  lemma LaterSendRejected(req: Incoming, w: World, j: nat)
    requires req.Json? && Admitted(req.fields) && 0 < j < PlanOf(req.fields).count
    requires AcceptedBefore(w, j) && Discord.Rejected(w.reply(j))
    ensures |Handle(req, w).steps| == j + 1
    ensures Handle(req, w).response == Response(200, BatchSummary(j, PlanOf(req.fields).count))
  {
    var p := PlanOf(req.fields);
    var (steps, exit) := SendLoop(p, w, 0, 0);
    assert WellFormedStep(p, w, |steps| - 1, steps[|steps| - 1]);
    assert j < |steps| ==> WellFormedStep(p, w, j, steps[j]);
  }

  /** `fetch` throwing on send j: a 500, even after earlier messages went out. */
  lemma SendThrows(req: Incoming, w: World, j: nat)
    requires req.Json? && Admitted(req.fields) && j < PlanOf(req.fields).count
    requires AcceptedBefore(w, j) && w.reply(j).NetworkFailure?
    ensures |Handle(req, w).steps| == j + 1
    ensures Handle(req, w).response == InternalServerError()
  {
    var p := PlanOf(req.fields);
    var (steps, exit) := SendLoop(p, w, 0, 0);
    assert WellFormedStep(p, w, |steps| - 1, steps[|steps| - 1]);
    assert j < |steps| ==> WellFormedStep(p, w, j, steps[j]);
  }
}

=== FILE: discord.dfy ===
/**
 * The Discord REST reply to `POST /channels/{id}/messages`, as the two
 * Cloudflare handlers see it, and the "friendly error" they extract from a
 * rejection.
 */
module Discord {
  import opened Js
  import Http

  /** The body of a rejection after `JSON.parse(await res.text())`: the parse throws, or yields a value. */
  datatype ErrorBody = Unparsable | Parsed(value: JsonValue)

  /** What `await fetch(...)` yields: an HTTP response, or a thrown network error. */
  datatype Reply =
    | Response(status: int, statusText: string, body: ErrorBody)
    | NetworkFailure

  /** `res.ok`: the status is in the 2xx range. */
  predicate Ok(r: Reply)
  {
    r.Response? && 200 <= r.status <= 299
  }

  /** A response that arrived but was refused by Discord (`!res.ok`). */
  predicate Rejected(r: Reply)
  {
    r.Response? && !Ok(r)
  }

  /**
   * `parsed.message` for a parsed value other than `null` (on `null` the
   * read throws): the `message` property of an object, `undefined` (None)
   * for an object without one and for every array, string, number or boolean.
   */
  function MessageOf(v: JsonValue): Option<JsonValue>
    requires !v.JNull?
  {
    if v.JObject? && "message" in v.props then Some(v.props["message"]) else None
  }

  /** The body parses to an object whose `message` property holds a truthy value. */
  predicate HasTruthyMessage(body: ErrorBody)
  {
    body.Parsed? && body.value.JObject? && "message" in body.value.props
    && TruthyValue(body.value.props["message"])
  }

  /**
   * `friendlyError` as the template literal renders it. It starts as
   * `res.statusText`; inside a `try`, the body is parsed and
   * `parsed.message || friendlyError` is stored; a throw there (a body that
   * is not JSON, or `null`) leaves `statusText`. The stored value is
   * rendered outside that `try`: a truthy `message` of an object body is
   * rendered, which can throw (None); in every other case the result is
   * `statusText`.
   */
  function FriendlyError(statusText: string, body: ErrorBody): (reason: Option<string>)
    ensures HasTruthyMessage(body) ==> reason == Render(body.value.props["message"])
    ensures !HasTruthyMessage(body) ==> reason == Some(statusText)
  {
    match body
    case Unparsable => Some(statusText)
    case Parsed(v) =>
      if v.JNull? then Some(statusText)
      else
        match MessageOf(v)
        case None => Some(statusText)
        case Some(m) => if TruthyValue(m) then Render(m) else Some(statusText)
  }

  /** The usual Discord error body: a non-empty string `message` is the reason, whatever else the object holds. */
  lemma StringMessageIsReason(statusText: string, props: map<string, JsonValue>, m: string)
    requires "message" in props && props["message"] == JString(m) && m != ""
    ensures FriendlyError(statusText, Parsed(JObject(props))) == Some(m)
  {
  }

  /** A positive numeric `message` is the reason in its decimal form, which reads back as the number. */
  lemma NumberMessageIsDecimal(statusText: string, n: nat)
    requires n > 0
    ensures var reason := FriendlyError(statusText, Parsed(JObject(map["message" := JNumber(n)])));
            reason == Some(Decimal(n)) && DecimalValue(reason.value) == n
  {
    assert HasTruthyMessage(Parsed(JObject(map["message" := JNumber(n)])));
    DecimalRoundTrip(n);
  }

  /**
   * `{"message": []}`: an empty array is truthy, so it wins over the status
   * text, and it renders as the empty string.
   */
  lemma EmptyArrayMessageHidesStatusText(statusText: string)
    ensures FriendlyError(statusText, Parsed(JObject(map["message" := JArray([])]))) == Some("")
  {
    var body := Parsed(JObject(map["message" := JArray([])]));
    assert HasTruthyMessage(body);
    assert Render(JArray([])) == Some("");
  }

  /** `{"message": {"toString": 1}}`: the message is truthy, and rendering it throws. */
  lemma OwnToStringThrows(statusText: string)
    ensures FriendlyError(statusText, Parsed(JObject(map["message" := JObject(map["toString" := JNumber(1)])]))).None?
  {
    assert HasTruthyMessage(Parsed(JObject(map["message" := JObject(map["toString" := JNumber(1)])])));
  }

  /** The same object inside an array: `join` renders the element, and throws with it. */
  lemma OwnToStringInArrayThrows(statusText: string)
    ensures FriendlyError(statusText, Parsed(JObject(map["message" := JArray([JObject(map["toString" := JNumber(1)])])]))).None?
  {
    var inner := JObject(map["toString" := JNumber(1)]);
    assert HasTruthyMessage(Parsed(JObject(map["message" := JArray([inner])])));
    assert Render(inner).None?;
  }

  const ErrorPrefix: string := "Discord Auth/Channel Error: "

  /** The `error` string of a rejection response. */
  function ErrorText(reason: string): (text: string)
    ensures |text| == |ErrorPrefix| + |reason|
    ensures text[..|ErrorPrefix|] == ErrorPrefix
  {
    ErrorPrefix + reason
  }

  /** The inverse of ErrorText: the reason behind a rejection's `error` string. */
  function ReasonOf(text: string): (reason: Option<string>)
    ensures reason.Some? <==> |text| >= |ErrorPrefix| && text[..|ErrorPrefix|] == ErrorPrefix
  {
    if |text| >= |ErrorPrefix| && text[..|ErrorPrefix|] == ErrorPrefix
    then Some(text[|ErrorPrefix|..])
    else None
  }

  /** The reason a client sees is exactly the one the handler put after the prefix. */
  lemma ReasonOfErrorText(reason: string)
    ensures ReasonOf(ErrorText(reason)) == Some(reason)
  {
    assert ErrorText(reason)[|ErrorPrefix|..] == reason;
  }

  /** Every prefixed error string is produced from exactly one reason. */
  lemma ErrorTextInjective(a: string, b: string)
    requires ErrorText(a) == ErrorText(b)
    ensures a == b
  {
    ReasonOfErrorText(a);
    ReasonOfErrorText(b);
  }

  /**
   * The response to a rejected send: `new Response` with Discord's status
   * and the prefixed friendly error. Rendering the friendly error may
   * throw, and so may `new Response` for a status it refuses; either way
   * the handler's outer `catch` answers 500.
   */
  function RejectionResponse(status: int, statusText: string, body: ErrorBody): (r: Http.Response)
    ensures FriendlyError(statusText, body).Some? && Http.Constructible(status) ==>
              && r.status == status
              && r.body.Failure?
              && ReasonOf(r.body.error) == FriendlyError(statusText, body)
    ensures !(FriendlyError(statusText, body).Some? && Http.Constructible(status)) ==> r == Http.InternalServerError()
    ensures !(200 <= status <= 299) ==> !Http.IsSuccess(r)
  {
    match FriendlyError(statusText, body)
    case None => Http.InternalServerError()
    case Some(reason) =>
      if Http.Constructible(status) then
        ReasonOfErrorText(reason);
        Http.Response(status, Http.Failure(ErrorText(reason)))
      else Http.InternalServerError()
  }
}

=== FILE: http.dfy ===
/** The JSON responses of the two Cloudflare send handlers. */
module Http {

  datatype Body =
    | Failure(error: string)                 // `{ error }`
    | BatchSummary(sent: int, total: int)    // `{ success: true, sent, total }`
    | Delivered(contentSent: string)         // `{ success: true, contentSent }`

  datatype Response = Response(status: int, body: Body)

  const DelayWindowError: string := "Max delay must be greater than Min delay"
  const InternalError: string := "Internal Server Error"

  /** What the outer `catch` returns for any thrown exception. */
  function InternalServerError(): Response
  {
    Response(500, Failure(InternalError))
  }

  /**
   * `new Response(JSON.stringify(...), { status })` accepts the status: it
   * lies in 200..599 (a RangeError otherwise) and is not one of the
   * null-body statuses 204, 205 and 304 (a TypeError for a body).
   */
  predicate Constructible(status: int)
  {
    200 <= status <= 599 && status != 204 && status != 205 && status != 304
  }

  predicate IsSuccess(r: Response)
  {
    r.status == 200 && !r.body.Failure?
  }
}

=== FILE: js.dfy ===
/**
 * The JavaScript value notions the handlers rely on: `undefined` fields,
 * default parameters in destructuring, truthiness, the values
 * `JSON.parse` yields, and their string forms as a template literal
 * renders them (`Render`, with `Decimal` and its inverse `DecimalValue`
 * for numbers).
 */
module Js {

  /** A field that may be `undefined` in a parsed JSON body. */
  datatype Option<+T> = None | Some(value: T)

  /** `const { x = d } = body`: the default applies only when `x` is undefined. */
  function DefaultTo<T>(o: Option<T>, d: T): T
  {
    match o
    case Some(x) => x
    case None => d
  }

  /**
   * Truthiness of a string-valued field. A missing field is modelled as the
   * empty string, which is falsy exactly like `undefined`.
   */
  predicate Truthy(s: string)
  {
    |s| > 0
  }

  /**
   * A value `JSON.parse` can return. Numbers are restricted to integers;
   * an object maps each key to its value (a repeated key keeps its last value).
   */
  datatype JsonValue =
    | JNull
    | JBool(b: bool)
    | JNumber(n: int)
    | JString(s: string)
    | JArray(items: seq<JsonValue>)
    | JObject(props: map<string, JsonValue>)

  /** JavaScript truthiness: `null`, `false`, `0` and `""` are falsy; every array and object, even empty, is truthy. */
  predicate TruthyValue(v: JsonValue)
  {
    match v
    case JNull => false
    case JBool(b) => b
    case JNumber(n) => n != 0
    case JString(s) => Truthy(s)
    case JArray(_) => true
    case JObject(_) => true
  }

  /**
   * `String(v)`, as a template literal renders it, or None where that
   * throws a TypeError. A JSON value is never callable, so an object with
   * its own `toString` key has no usable `toString`, and the inherited
   * `valueOf` returns the object itself; any other object renders as
   * "[object Object]". An array renders as the join of its elements, with
   * `null` as "", and throws when an element does.
   */
  function Render(v: JsonValue): Option<string>
    decreases v
  {
    match v
    case JNull => Some("null")
    case JBool(b) => Some(if b then "true" else "false")
    case JNumber(n) => Some(if n < 0 then "-" + Decimal(-n) else Decimal(n))
    case JString(s) => Some(s)
    case JArray(items) =>
      var parts := seq(|items|, i requires 0 <= i < |items| => if items[i].JNull? then Some("") else Render(items[i]));
      if forall i :: 0 <= i < |parts| ==> parts[i].Some?
      then Some(JoinWithCommas(seq(|parts|, i requires 0 <= i < |parts| && parts[i].Some? => parts[i].value)))
      else None
    case JObject(props) => if "toString" in props then None else Some("[object Object]")
  }

  /** `Array.prototype.join` with the default separator. */
  function JoinWithCommas(parts: seq<string>): string
    decreases |parts|
  {
    if |parts| == 0 then ""
    else if |parts| == 1 then parts[0]
    else JoinWithCommas(parts[..|parts| - 1]) + "," + parts[|parts| - 1]
  }

  predicate IsDigit(c: char)
  {
    '0' <= c <= '9'
  }

  /** The decimal digits of n, most significant first, without leading zeros. */
  function Decimal(n: nat): (s: string)
    decreases n
    ensures |s| > 0 && forall i :: 0 <= i < |s| ==> IsDigit(s[i])
    ensures |s| > 1 ==> s[0] != '0'
  {
    if n < 10 then [(48 + n) as char]
    else Decimal(n / 10) + [(48 + n % 10) as char]
  }

  /** The number a string of decimal digits denotes: the reading of Decimal's output. */
  function DecimalValue(s: string): nat
    requires forall i :: 0 <= i < |s| ==> IsDigit(s[i])
    decreases |s|
  {
    if |s| == 0 then 0
    else
      assert IsDigit(s[|s| - 1]);
      DecimalValue(s[..|s| - 1]) * 10 + (s[|s| - 1] as int - 48)
  }

  /** Decimal writes every number so that it reads back as itself. */
  lemma {:induction false} DecimalRoundTrip(n: nat)
    ensures DecimalValue(Decimal(n)) == n
    decreases n
  {
    if n >= 10 {
      DecimalRoundTrip(n / 10);
      var s := Decimal(n);
      assert s[..|s| - 1] == Decimal(n / 10);
    }
  }

  /** `Math.max(x, 0)`, used to state loop bounds for a possibly negative count. */
  function NonNeg(x: int): nat
  {
    if x < 0 then 0 else x
  }
}

=== FILE: quotes.dfy ===
/**
 * `getRandomQuote`, identical in both Cloudflare handlers: one call to the
 * quotes API, and on any failure a pick from a fixed list of fallback quotes.
 */
module Quotes {
  import opened Randomness

  const FallbackQuotes: seq<string> := [
    "The journey of a thousand miles begins with one step.",
    "That which does not kill us makes us stronger.",
    "Life is what happens when you're busy making other plans.",
    "When the going gets tough, the tough get going.",
    "You must be the change you wish to see in the world.",
    "You only live once, but if you do it right, once is enough.",
    "The only impossible journey is the one you never begin."
  ]

  /**
   * The outcome of the quotes API call. Every failure (`fetch` throwing, a
   * non-ok status, a body that is not JSON) ends in the `catch`, where
   * `Math.random()` is drawn.
   */
  datatype QuoteReply =
    | Fetched(content: string, author: string)
    | Unavailable(pick: Draw)

  /** The template literal `"${content}" — ${author}`. */
  function Attributed(content: string, author: string): string
  {
    "\"" + content + "\" \U{2014} " + author
  }

  /** `getRandomQuote()`: total, so it never throws; a fallback is always an element of the list. */
  function RandomQuote(q: QuoteReply): (text: string)
    ensures q.Unavailable? ==> text in FallbackQuotes
    ensures q.Fetched? ==> text == Attributed(q.content, q.author)
    ensures |text| > 0
  {
    match q
    case Fetched(content, author) => Attributed(content, author)
    case Unavailable(d) => FallbackQuotes[Scale(d, |FallbackQuotes|)]
  }

  /** The fallback pick can land on every quote of the list, and on nothing else. */
  lemma EveryFallbackReachable(k: nat)
    requires k < |FallbackQuotes|
    ensures RandomQuote(Unavailable(Ratio(k, |FallbackQuotes|))) == FallbackQuotes[k]
  {
    ScaleReachesEveryIndex(|FallbackQuotes|, k);
  }
}

=== FILE: random_text.dfy ===
/**
 * `generateRandomText` of the selfbot back end: `length` characters drawn
 * from a 63-character alphabet, trimmed, with a fixed fallback when
 * trimming leaves nothing.
 */
module RandomText {
  import opened Js
  import opened Randomness

  /** `'ABCDEFGHIJKLMNOPQRSTUVWXYZabcdefghijklmnopqrstuvwxyz0123456789 '`, built from its ranges. */
  const Alphabet: string := CharRange('A', 26) + CharRange('a', 26) + CharRange('0', 10) + " "

  /** The n consecutive characters starting at `first`. */
  function CharRange(first: char, n: nat): (s: string)
    requires first as int + n <= 0xD800
  {
    seq(n, i requires 0 <= i < n => (first as int + i) as char)
  }

  const Fallback: string := "random_message"

  /**
   * The characters `String.prototype.trim` strips (ECMAScript WhiteSpace and
   * LineTerminator, without the remaining Unicode space separators).
   */
  predicate IsWhitespace(c: char)
  {
    || c == ' ' || c == '\t' || c == '\n' || c == '\r' || c == '\U{000B}' || c == '\U{000C}'
    || c == '\U{00A0}' || c == '\U{FEFF}' || c == '\U{2028}' || c == '\U{2029}'
  }

  /** The only whitespace character of the alphabet is the space. */
  lemma AlphabetWhitespaceIsSpace(i: nat)
    requires i < |Alphabet|
    ensures IsWhitespace(Alphabet[i]) <==> Alphabet[i] == ' '
  {
    AlphabetLayout(i);
  }

  /** Where each index of the alphabet points. */
  lemma AlphabetLayout(i: nat)
    requires i < |Alphabet|
    ensures |Alphabet| == 63
    ensures i < 26 ==> 'A' <= Alphabet[i] <= 'Z'
    ensures 26 <= i < 52 ==> 'a' <= Alphabet[i] <= 'z'
    ensures 52 <= i < 62 ==> '0' <= Alphabet[i] <= '9'
    ensures i == 62 ==> Alphabet[i] == ' '
  {
    var u, l, d := CharRange('A', 26), CharRange('a', 26), CharRange('0', 10);
    assert Alphabet == u + l + d + " ";
    if i < 26 {
      assert Alphabet[i] == u[i];
    } else if i < 52 {
      assert Alphabet[i] == l[i - 26];
    } else if i < 62 {
      assert Alphabet[i] == d[i - 52];
    }
  }

  /** The fallback text is not made of alphabet characters: it contains '_'. */
  lemma FallbackOutsideAlphabet()
    ensures Fallback[6] == '_' && '_' !in Alphabet
  {
    if '_' in Alphabet {
      var i :| 0 <= i < |Alphabet| && Alphabet[i] == '_';
      AlphabetLayout(i);
    }
  }

  /** `chars.charAt(Math.floor(Math.random() * chars.length))`. */
  function PickChar(d: Draw): (c: char)
    ensures c in Alphabet
  {
    Alphabet[Scale(d, |Alphabet|)]
  }

  /** The untrimmed `result` of the loop: character i comes from draw i. */
  function Raw(length: int, draw: nat -> Draw): (s: string)
    decreases length
    ensures |s| == NonNeg(length)
    ensures forall i :: 0 <= i < |s| ==> s[i] == PickChar(draw(i))
  {
    if length <= 0 then "" else Raw(length - 1, draw) + [PickChar(draw(length - 1))]
  }

  /** `trimStart`: the longest suffix not starting with whitespace; all that is cut is whitespace. */
  function TrimStart(s: string): (r: string)
    ensures |r| <= |s| && r == s[|s| - |r|..]
    ensures forall i :: 0 <= i < |s| - |r| ==> IsWhitespace(s[i])
    ensures r == [] || !IsWhitespace(r[0])
  {
    if |s| > 0 && IsWhitespace(s[0]) then TrimStart(s[1..]) else s
  }

  /** `trimEnd`: the longest prefix not ending in whitespace; all that is cut is whitespace. */
  function TrimEnd(s: string): (r: string)
    ensures |r| <= |s| && r == s[..|r|]
    ensures forall i :: |r| <= i < |s| ==> IsWhitespace(s[i])
    ensures r == [] || !IsWhitespace(r[|r| - 1])
  {
    if |s| > 0 && IsWhitespace(s[|s| - 1]) then TrimEnd(s[..|s| - 1]) else s
  }

  /**
   * `r` is the slice of `s` starting at `a`, and everything of `s` before
   * and after that slice is whitespace.
   */
  predicate TrimmedAt(s: string, r: string, a: nat)
    requires a + |r| <= |s|
  {
    && r == s[a..a + |r|]
    && (forall c :: c in s[..a] ==> IsWhitespace(c))
    && (forall c :: c in s[a + |r|..] ==> IsWhitespace(c))
  }

  /**
   * `String.prototype.trim`: whitespace cut from both ends, none left at
   * either end. TrimIsSlice shows that nothing else is cut.
   */
  function Trim(s: string): (r: string)
    ensures r == [] <==> forall i :: 0 <= i < |s| ==> IsWhitespace(s[i])
    ensures r != [] ==> !IsWhitespace(r[0]) && !IsWhitespace(r[|r| - 1])
    ensures forall c :: c in r ==> c in s
    ensures |r| <= |s|
  {
    var t := TrimStart(s);
    var r := TrimEnd(t);
    TrimBothEnds(s, t, r);
    r
  }

  /** The trimmed text is a slice of the input with only whitespace cut on either side. */
  lemma TrimIsSlice(s: string)
    ensures exists a: nat :: a + |Trim(s)| <= |s| && TrimmedAt(s, Trim(s), a)
  {
    var t := TrimStart(s);
    TrimBothEnds(s, t, TrimEnd(t));
    assert |s| - |t| + |Trim(s)| <= |s| && TrimmedAt(s, Trim(s), |s| - |t|);
  }

  /** Helper for Trim: a suffix cut at the front and then a prefix cut at the back, as TrimStart and TrimEnd describe them. */
  lemma TrimBothEnds(s: string, t: string, r: string)
    requires |t| <= |s| && t == s[|s| - |t|..]
    requires forall i :: 0 <= i < |s| - |t| ==> IsWhitespace(s[i])
    requires t == [] || !IsWhitespace(t[0])
    requires |r| <= |t| && r == t[..|r|]
    requires forall i :: |r| <= i < |t| ==> IsWhitespace(t[i])
    requires r == [] || !IsWhitespace(r[|r| - 1])
    ensures |s| - |t| + |r| <= |s| && TrimmedAt(s, r, |s| - |t|)
    ensures r == [] <==> forall i :: 0 <= i < |s| ==> IsWhitespace(s[i])
    ensures r != [] ==> !IsWhitespace(r[0]) && !IsWhitespace(r[|r| - 1])
    ensures forall c :: c in r ==> c in s
  {
    var cut := |s| - |t|;
    assert r == s[cut..cut + |r|];
    forall i | cut + |r| <= i < |s| ensures IsWhitespace(s[i]) {
      assert s[i] == t[i - cut];
    }
    if r == [] {
      assert t == [];
    } else {
      assert r[0] == t[0] == s[cut];
    }
    forall c | c in r ensures c in s {
      var i :| 0 <= i < |r| && r[i] == c;
      assert t[i] == c;
      assert s[cut + i] == c;
    }
  }

  /**
   * `generateRandomText(length)`: never empty. Either the drawn text with
   * only its leading and trailing spaces cut, made only of alphabet
   * characters and no longer than asked, or the fallback, which appears
   * exactly when every drawn character is a space.
   */
  function Generate(length: int, draw: nat -> Draw): (r: string)
    ensures r != ""
    ensures r == Fallback || (|r| <= NonNeg(length) && forall c :: c in r ==> c in Alphabet)
    ensures r != Fallback ==> !IsWhitespace(r[0]) && !IsWhitespace(r[|r| - 1])
    ensures r == Fallback <==> forall i :: 0 <= i < length ==> PickChar(draw(i)) == ' '
  {
    var t := Trim(Raw(length, draw));
    TrimEmptyIffAllSpaces(length, draw);
    FallbackNotAlphabetic(t);
    if t == "" then Fallback else t
  }

  /**
   * Unless it is the fallback, the generated text is the drawn text with
   * only whitespace cut from its two ends.
   */
  lemma GenerateTrimsDraw(length: int, draw: nat -> Draw)
    ensures var r := Generate(length, draw);
            r != Fallback ==> exists a: nat :: a + |r| <= |Raw(length, draw)| && TrimmedAt(Raw(length, draw), r, a)
  {
    TrimIsSlice(Raw(length, draw));
    assert Generate(length, draw) != Fallback ==> Generate(length, draw) == Trim(Raw(length, draw));
  }

  /** The trimmed draw is empty exactly when every drawn character is the space. */
  lemma TrimEmptyIffAllSpaces(length: int, draw: nat -> Draw)
    ensures Trim(Raw(length, draw)) == "" <==> forall i :: 0 <= i < length ==> PickChar(draw(i)) == ' '
  {
    var raw := Raw(length, draw);
    forall i | 0 <= i < length
      ensures IsWhitespace(raw[i]) <==> PickChar(draw(i)) == ' '
    {
      AlphabetWhitespaceIsSpace(Scale(draw(i), |Alphabet|));
    }
  }

  /** A text made of alphabet characters is never the fallback. */
  lemma FallbackNotAlphabetic(t: string)
    requires forall c :: c in t ==> c in Alphabet
    ensures t != Fallback
  {
    FallbackOutsideAlphabet();
  }

  /** `Math.floor(Math.random() * 30) + 10`: the length asked for a randomized selfbot message. */
  function MessageLength(d: Draw): (n: int)
    ensures 10 <= n <= 39
  {
    Scale(d, 30) + 10
  }

  /** Every length from 10 to 39 is asked for by some draw. */
  lemma EveryMessageLengthReachable(n: int)
    requires 10 <= n <= 39
    ensures MessageLength(Ratio(n - 10, 30)) == n
  {
    ScaleReachesEveryIndex(30, n - 10);
  }
}

=== FILE: randomness.dfy ===
/**
 * `Math.random()` and the `Math.floor(Math.random() * n)` idiom.
 *
 * A draw of `Math.random()` is modelled as an exact rational num/den in
 * [0, 1); a double is a dyadic rational, so every value `Math.random()` can
 * return is one of these. Rounding of the floating-point product is not
 * modelled.
 */
module Randomness {

  datatype Ratio = Ratio(num: nat, den: nat)

  /** A value `Math.random()` may return: a rational in [0, 1). */
  type Draw = r: Ratio | r.num < r.den witness Ratio(0, 1)

  /** `Math.floor(d * n)` for a non-negative integer `n`. */
  function Scale(d: Draw, n: nat): (k: nat)
    ensures n > 0 ==> k < n
    ensures n == 0 ==> k == 0
  {
    FloorBelow(d.num, d.den, n);
    (d.num * n) / d.den
  }

  /** Helper: num < den implies floor(num * n / den) < n whenever n > 0. */
  lemma FloorBelow(num: nat, den: nat, n: nat)
    requires num < den
    ensures n > 0 ==> (num * n) / den < n
    ensures n == 0 ==> (num * n) / den == 0
  {
    if n > 0 {
      var a := num * n;
      var q := a / den;
      assert den * q + a % den == a;
      MulMonotone(num, den, n);
      assert a < den * n;
    } else {
      assert num * n == 0;
    }
  }

  /** Helper: multiplication by a positive factor is monotone (x <= y, strictly when x < y). */
  lemma MulMonotone(x: nat, y: nat, z: nat)
    requires x < y
    ensures x * z <= y * z
    ensures z > 0 ==> x * z < y * z
    ensures x * z <= z * y && z * x <= z * y
  {
    var d := y - x;
    assert y * z == x * z + d * z;
  }

  /**
   * Every index below n is produced by some draw: the range of
   * `Math.floor(Math.random() * n)` is exactly 0 .. n-1.
   */
  lemma {:induction false} ScaleReachesEveryIndex(n: nat, k: nat)
    requires k < n
    ensures Scale(Ratio(k, n), n) == k
  {
    DivOfMultiple(k, n);
  }

  /** Helper: (k * n) / n == k for n > 0. */
  lemma DivOfMultiple(k: nat, n: nat)
    requires n > 0
    ensures (k * n) / n == k
  {
    var a := k * n;
    var q := a / n;
    var r := a % n;
    assert a == n * q + r && 0 <= r < n;
    if q < k {
      MulLe(q + 1, k, n);
    } else if q > k {
      MulLe(k + 1, q, n);
    }
  }

  /** Helper: x <= y implies x * z <= y * z. */
  lemma MulLe(x: nat, y: nat, z: nat)
    requires x <= y
    ensures z * x <= z * y && x * z <= y * z
  {
    assert z * y == z * x + z * (y - x);
  }

  /** `Math.floor(Math.random() * (hi - lo + 1) + lo)`, an integer in [lo, hi]. */
  function Between(d: Draw, lo: int, hi: int): (v: int)
    requires lo <= hi
    ensures lo <= v <= hi
  {
    lo + Scale(d, hi - lo + 1)
  }

  /** Every integer in [lo, hi] is produced by some draw. */
  lemma BetweenReachesEveryValue(lo: int, hi: int, v: int)
    requires lo <= v <= hi
    ensures Between(Ratio(v - lo, hi - lo + 1), lo, hi) == v
  {
    ScaleReachesEveryIndex(hi - lo + 1, v - lo);
  }
}

=== FILE: registry.dfy ===
/**
 * `activeOperations` in `backend/discordClient.js`: the ids of the tasks
 * that can still be stopped. A task registers itself on start, the stop
 * endpoint removes it, and the task removes itself in its `finally`.
 */
module Registry {

  /** A task id: the server's `Date.now()` reading at start, in milliseconds. */
  type TaskId = nat

  /** The keys of `activeOperations`; the stop closures behind them are the task's stop flag. */
  type Active = set<TaskId>

  /** `activeOperations.set(taskId, { stop })`. */
  function Register(a: Active, id: TaskId): (a': Active)
    ensures id in a'
    ensures forall other :: other != id ==> (other in a' <==> other in a)
  {
    a + {id}
  }

  /**
   * `stopSendingMessages(taskId)`: succeeds exactly when the id is
   * registered, and leaves it unregistered either way.
   */
  function Stop(a: Active, id: TaskId): (r: (bool, Active))
    ensures r.0 <==> id in a
    ensures id !in r.1
    ensures forall other :: other != id ==> (other in r.1 <==> other in a)
  {
    (id in a, a - {id})
  }

  /** `activeOperations.delete(taskId)` in the task's `finally`. */
  function Cleanup(a: Active, id: TaskId): (a': Active)
    ensures id !in a'
    ensures forall other :: other != id ==> (other in a' <==> other in a)
  {
    a - {id}
  }

  /** A second stop right after the first always fails. */
  lemma SecondStopFails(a: Active, id: TaskId)
    ensures !Stop(Stop(a, id).1, id).0
    ensures Stop(Stop(a, id).1, id).1 == Stop(a, id).1
  {
  }

  /** Once a task has cleaned up, stopping it fails, whether or not it had been stopped before. */
  lemma StopAfterCleanupFails(a: Active, id: TaskId)
    ensures !Stop(Cleanup(a, id), id).0
    ensures !Stop(Cleanup(Stop(a, id).1, id), id).0
  {
  }
}

=== FILE: request.dfy ===
/**
 * The JSON body the three send endpoints destructure. Each endpoint reads
 * the fields it needs; a field absent from the body is `None` (or the empty
 * string for string fields, which JavaScript treats as equally falsy).
 */
module Request {
  import opened Js

  datatype Fields = Fields(
    token: string,
    channelId: string,
    message: string,
    count: Option<int>,
    minDelayMs: Option<int>,
    maxDelayMs: Option<int>,
    delayMs: Option<int>,
    randomize: bool)

  /** The `error` of the 400 every endpoint gives a request with a required field missing. */
  const MissingFieldsError: string := "Missing required fields"

  /** A request body: either JSON that parsed, or one on which `request.json()` throws. */
  datatype Incoming = Unparsable | Json(fields: Fields)

  /** The string fields a send needs: token and channel always, the message unless it is randomized. */
  function Required(f: Fields): seq<string>
  {
    [f.token, f.channelId] + (if f.randomize then [] else [f.message])
  }

  /**
   * `!token || !channelId || (!message && !randomize)`: the part of the
   * "Missing required fields" check shared by every endpoint. It refuses
   * exactly the requests in which a required string is empty or absent.
   */
  function MissingBasics(f: Fields): (r: bool)
    ensures r <==> "" in Required(f)
  {
    !Truthy(f.token) || !Truthy(f.channelId) || (!Truthy(f.message) && !f.randomize)
  }

  /**
   * The batch endpoint and the selfbot server also insist on
   * `count !== undefined`: they refuse what the single endpoint refuses, and
   * besides exactly the requests without a count.
   */
  function MissingBasicsOrCount(f: Fields): (r: bool)
    ensures r <==> "" in Required(f) || f.count.None?
    ensures MissingBasics(f) ==> r
  {
    MissingBasics(f) || f.count.None?
  }

  /** With `randomize` set, the message plays no part in validation. */
  lemma RandomizedMessageIsOptional(f: Fields, m: string)
    requires f.randomize
    ensures MissingBasics(f.(message := m)) == MissingBasics(f)
    ensures MissingBasicsOrCount(f.(message := m)) == MissingBasicsOrCount(f)
  {
  }
}

=== FILE: selfbot.dfy ===
/**
 * `startSendingMessages` of the selfbot back end (`backend/discordClient.js`):
 * log in, fetch the channel, then send `count` messages with a fixed pause
 * between them, reporting progress, until done, stopped or failed.
 *
 * Concurrency is reduced to one discrete choice. JavaScript runs the task
 * and the server's stop handler on one thread, so a stop can only run while
 * the task waits at an `await`. The awaits are numbered on a clock:
 * 0 for the setup (login, warm-up sleep, channel fetch), 2i+1 for send i
 * and 2i+2 for the sleep after send i. `stopAt` is the await during which
 * the stop handler runs, if it runs at all; the stop flag is then seen by
 * every check that comes after that await.
 */
module Selfbot {
  import opened Js
  import opened Randomness
  import RandomText

  const ChannelNotFound: string := "Channel not found or bot lacks permissions."
  const NotTextChannel: string := "Channel is not a text channel."

  /** The arguments of `startSendingMessages` that shape the run. */
  datatype Task = Task(message: string, count: int, delayMs: int, randomize: bool)

  /** How `client.login`, the warm-up sleep and `client.channels.fetch` end. */
  datatype Setup =
    | Ready                          // a text channel was fetched
    | SetupThrew(message: string)    // login or fetch threw
    | NoChannel                      // fetch resolved to nothing
    | NotText                        // the channel is not text-based

  /** How one `channel.send` ends. */
  datatype Delivery = Delivered | SendThrew(message: string)

  /**
   * The outcomes of the calls the task makes, per message index: how each
   * send ends, and the text `generateRandomText` returns for a randomized
   * message (DrawnWorld computes it from the random draws).
   */
  datatype World = World(
    setup: Setup,
    send: nat -> Delivery,
    text: nat -> string)

  /**
   * The world in which message i's random text is generated from its own
   * draws: one for the length, and one per character.
   */
  function DrawnWorld(setup: Setup, send: nat -> Delivery, textLength: nat -> Draw, textChar: nat -> nat -> Draw): World
  {
    World(setup, send, (i: nat) => RandomText.Generate(RandomText.MessageLength(textLength(i)), textChar(i)))
  }

  /** One pass of the `for` loop that reached `channel.send`. */
  datatype Iteration = Iteration(
    payload: string,
    delivery: Delivery,
    stopDuringSend: bool,     // the stop handler ran while this send was awaited
    pause: Option<int>,       // the sleep that followed, if any
    stopDuringPause: bool)    // the stop handler ran during that sleep

  /** How the `for` loop ended. */
  datatype Exit = Finished | Broke | Threw(message: string)

  /** Which callback the task fires: `onComplete`, `onError`, or neither. */
  datatype Outcome = Completed | Failed(message: string) | Halted

  datatype Run = Run(stopDuringSetup: bool, iterations: seq<Iteration>, outcome: Outcome)

  function SendClock(i: nat): nat { 2 * i + 1 }
  function PauseClock(i: nat): nat { 2 * i + 2 }

  /** The stop flag is set by the time a check placed after await `clock` runs. */
  predicate Raised(stopAt: Option<nat>, clock: nat)
  {
    stopAt.Some? && stopAt.value <= clock
  }

  /** `randomize ? generateRandomText(Math.floor(Math.random() * 30) + 10) : message` for message i. */
  function Payload(t: Task, w: World, i: nat): string
  {
    if t.randomize then w.text(i) else t.message
  }

  /**
   * In a drawn world, a randomized message is generated text of 10 to 39
   * requested characters: never empty, and either the fallback or alphabet
   * characters with no whitespace at either end.
   */
  lemma DrawnPayload(t: Task, setup: Setup, send: nat -> Delivery, textLength: nat -> Draw, textChar: nat -> nat -> Draw, i: nat)
    ensures var p := Payload(t, DrawnWorld(setup, send, textLength, textChar), i);
            var n := RandomText.MessageLength(textLength(i));
            && (t.randomize ==> p == RandomText.Generate(n, textChar(i)) && 10 <= n <= 39 && p != "")
            && (t.randomize ==> p == RandomText.Fallback || (|p| <= n && forall c :: c in p ==> c in RandomText.Alphabet))
            && (!t.randomize ==> p == t.message)
  {
  }

  /**
   * What one pass j of the loop looks like: it sends message j's payload,
   * Discord's answer is `w.send(j)`, the stop flag was clear when the pass
   * began, and it pauses for `delayMs` exactly when the send was delivered,
   * was not the last, and no stop arrived during it.
   */
  predicate WellFormed(t: Task, w: World, stopAt: Option<nat>, j: nat, it: Iteration)
  {
    && it.payload == Payload(t, w, j)
    && it.delivery == w.send(j)
    && !Raised(stopAt, 2 * j)
    && (it.stopDuringSend <==> stopAt == Some(SendClock(j)))
    && (it.pause.Some? <==> it.delivery.Delivered? && j < t.count - 1 && !Raised(stopAt, SendClock(j)))
    && (it.pause.Some? ==> it.pause.value == t.delayMs)
    && (it.stopDuringPause <==> it.pause.Some? && stopAt == Some(PauseClock(j)))
  }

  /**
   * The `for` loop from index i. Every pass is well formed, every pass but
   * the last paused, and the exit says why the loop ended.
   */
  function Loop(t: Task, w: World, stopAt: Option<nat>, i: nat): (r: (seq<Iteration>, Exit))
    decreases t.count - i
    ensures i >= t.count ==> r.0 == [] && r.1 == Finished
    ensures i < t.count ==> |r.0| <= t.count - i
    ensures forall k :: 0 <= k < |r.0| ==> WellFormed(t, w, stopAt, i + k, r.0[k])
    ensures forall k :: 0 <= k < |r.0| - 1 ==> r.0[k].pause.Some?
    ensures r.1.Finished? ==>
              |r.0| == NonNeg(t.count - i) && forall k :: 0 <= k < |r.0| ==> r.0[k].delivery.Delivered?
    ensures r.1.Broke? ==>
              i + |r.0| < t.count && Raised(stopAt, 2 * (i + |r.0|))
              && (|r.0| > 0 ==> r.0[|r.0| - 1].delivery.Delivered?)
    ensures r.1.Threw? ==> |r.0| > 0 && r.0[|r.0| - 1].delivery == SendThrew(r.1.message)
  {
    if i >= t.count then ([], Finished)
    else if Raised(stopAt, 2 * i) then ([], Broke)
    else
      var payload := Payload(t, w, i);
      var inSend := stopAt == Some(SendClock(i));
      match w.send(i)
      case SendThrew(m) => ([Iteration(payload, SendThrew(m), inSend, None, false)], Threw(m))
      case Delivered =>
        var pause := if i < t.count - 1 && !Raised(stopAt, SendClock(i)) then Some(t.delayMs) else None;
        var inPause := pause.Some? && stopAt == Some(PauseClock(i));
        var rest := Loop(t, w, stopAt, i + 1);
        var it := Iteration(payload, Delivered, inSend, pause, inPause);
        PrependPass(t, w, stopAt, i, it, rest.0);
        ([it] + rest.0, rest.1)
  }

  /** Helper for Loop: a delivered pass i in front of the well-formed passes from i + 1. */
  lemma PrependPass(t: Task, w: World, stopAt: Option<nat>, i: nat, it: Iteration, rest: seq<Iteration>)
    requires WellFormed(t, w, stopAt, i, it) && it.delivery.Delivered?
    requires |rest| > 0 ==> i + 1 < t.count
    requires forall k :: 0 <= k < |rest| ==> WellFormed(t, w, stopAt, i + 1 + k, rest[k])
    requires forall k :: 0 <= k < |rest| - 1 ==> rest[k].pause.Some?
    ensures var its := [it] + rest;
            && (forall k :: 0 <= k < |its| ==> WellFormed(t, w, stopAt, i + k, its[k]))
            && (forall k :: 0 <= k < |its| - 1 ==> its[k].pause.Some?)
            && ((forall k :: 0 <= k < |rest| ==> rest[k].delivery.Delivered?) ==>
                  forall k :: 0 <= k < |its| ==> its[k].delivery.Delivered?)
            && its[|its| - 1] == (if |rest| > 0 then rest[|rest| - 1] else it)
            && ((|rest| > 0 ==> rest[|rest| - 1].delivery.Delivered?) ==> its[|its| - 1].delivery.Delivered?)
  {
    var its := [it] + rest;
    forall k | 1 <= k < |its| ensures its[k] == rest[k - 1] { }
    assert |rest| > 0 ==> WellFormed(t, w, stopAt, i + 1, rest[0]);
  }

  /** The last await the task passed through. */
  function LastClock(its: seq<Iteration>): nat
  {
    if |its| == 0 then 0
    else if its[|its| - 1].pause.Some? then PauseClock(|its| - 1)
    else SendClock(|its| - 1)
  }

  /** The stop handler ran while the task was still registered. */
  predicate StopLanded(r: Run)
  {
    r.stopDuringSetup
    || exists k :: 0 <= k < |r.iterations| && (r.iterations[k].stopDuringSend || r.iterations[k].stopDuringPause)
  }

  /**
   * `startSendingMessages` from its first await to its `finally`. Pass k
   * sends message k's payload and meets Discord's answer `w.send(k)`, as
   * WellFormed describes it, and every pass but the last paused.
   * `onComplete` fires exactly when the setup succeeded, all `count` sends
   * were delivered and no stop arrived; `onError` exactly when the setup or
   * the last send threw; otherwise (stopped) neither. A stop lands exactly
   * when it arrives no later than the last await the task passes through.
   */
  function Execute(t: Task, w: World, stopAt: Option<nat>): (r: Run)
    ensures |r.iterations| <= NonNeg(t.count)
    ensures forall k :: 0 <= k < |r.iterations| ==> WellFormed(t, w, stopAt, k, r.iterations[k])
    ensures forall k :: 0 <= k < |r.iterations| - 1 ==> r.iterations[k].pause.Some?
    ensures r.stopDuringSetup <==> stopAt == Some(0)
    ensures StopLanded(r) <==> Raised(stopAt, LastClock(r.iterations))
    ensures r.outcome == Completed <==>
              && w.setup == Ready
              && |r.iterations| == NonNeg(t.count)
              && (forall k :: 0 <= k < |r.iterations| ==> r.iterations[k].delivery.Delivered?)
              && !StopLanded(r)
    ensures r.outcome.Failed? <==>
              w.setup != Ready || (|r.iterations| > 0 && r.iterations[|r.iterations| - 1].delivery.SendThrew?)
    ensures w.setup == NoChannel ==> r == Run(stopAt == Some(0), [], Failed(ChannelNotFound))
    ensures w.setup == NotText ==> r == Run(stopAt == Some(0), [], Failed(NotTextChannel))
    ensures w.setup.SetupThrew? ==> r == Run(stopAt == Some(0), [], Failed(w.setup.message))
    ensures r.outcome.Failed? && w.setup == Ready ==>
              r.outcome.message == r.iterations[|r.iterations| - 1].delivery.message
    ensures r.outcome == Halted <==> w.setup == Ready && StopLanded(r) && !r.outcome.Failed?
  {
    var inSetup := stopAt == Some(0);
    match w.setup
    case SetupThrew(m) => Run(inSetup, [], Failed(m))
    case NoChannel => Run(inSetup, [], Failed(ChannelNotFound))
    case NotText => Run(inSetup, [], Failed(NotTextChannel))
    case Ready => ReadyExecute(t, w, stopAt)
  }

  /** Helper for Execute: the run after a successful setup, with Loop's passes from 0. */
  function ReadyExecute(t: Task, w: World, stopAt: Option<nat>): (r: Run)
    requires w.setup == Ready
    ensures |r.iterations| <= NonNeg(t.count)
    ensures forall k :: 0 <= k < |r.iterations| ==> WellFormed(t, w, stopAt, k, r.iterations[k])
    ensures forall k :: 0 <= k < |r.iterations| - 1 ==> r.iterations[k].pause.Some?
    ensures r.stopDuringSetup <==> stopAt == Some(0)
    ensures StopLanded(r) <==> Raised(stopAt, LastClock(r.iterations))
    ensures r.outcome == Completed <==>
              && |r.iterations| == NonNeg(t.count)
              && (forall k :: 0 <= k < |r.iterations| ==> r.iterations[k].delivery.Delivered?)
              && !StopLanded(r)
    ensures r.outcome.Failed? <==> |r.iterations| > 0 && r.iterations[|r.iterations| - 1].delivery.SendThrew?
    ensures r.outcome.Failed? ==> r.outcome.message == r.iterations[|r.iterations| - 1].delivery.message
    ensures r.outcome == Halted <==> StopLanded(r) && !r.outcome.Failed?
  {
    var (its, exit) := Loop(t, w, stopAt, 0);
    LoopFromStart(t, w, stopAt, its, exit);
    var r := Run(stopAt == Some(0), its, OutcomeOf(stopAt, its, exit));
    ReadyRun(t, w, stopAt, its, exit, r);
    r
  }

  /** Helper for ReadyExecute: Loop's contract at index 0, with pass k numbered k. */
  lemma LoopFromStart(t: Task, w: World, stopAt: Option<nat>, its: seq<Iteration>, exit: Exit)
    requires (its, exit) == Loop(t, w, stopAt, 0)
    ensures |its| <= NonNeg(t.count)
    ensures forall k :: 0 <= k < |its| ==> WellFormed(t, w, stopAt, k, its[k])
    ensures forall k :: 0 <= k < |its| - 1 ==> its[k].pause.Some?
    ensures exit.Finished? ==>
              |its| == NonNeg(t.count) && forall k :: 0 <= k < |its| ==> its[k].delivery.Delivered?
    ensures exit.Broke? ==>
              |its| < t.count && Raised(stopAt, 2 * |its|)
              && (|its| > 0 ==> its[|its| - 1].delivery.Delivered?)
    ensures exit.Threw? ==> |its| > 0 && its[|its| - 1].delivery == SendThrew(exit.message)
  {
    forall k | 0 <= k < |its| ensures WellFormed(t, w, stopAt, k, its[k]) {
      assert WellFormed(t, w, stopAt, 0 + k, its[k]);
    }
  }

  /**
   * How a loop exit decides the callback: a throw gives `onError`, a break
   * neither, and a finished loop `onComplete` unless a stop was raised by
   * its last await.
   */
  function OutcomeOf(stopAt: Option<nat>, its: seq<Iteration>, exit: Exit): Outcome
  {
    match exit
    case Threw(m) => Failed(m)
    case Broke => Halted
    case Finished => if Raised(stopAt, LastClock(its)) then Halted else Completed
  }

  /** Helper for Execute: its contract for a ready setup, from what Loop promises of the passes from 0. */
  lemma ReadyRun(t: Task, w: World, stopAt: Option<nat>, its: seq<Iteration>, exit: Exit, r: Run)
    requires w.setup == Ready
    requires |its| <= NonNeg(t.count)
    requires forall k :: 0 <= k < |its| ==> WellFormed(t, w, stopAt, k, its[k])
    requires forall k :: 0 <= k < |its| - 1 ==> its[k].pause.Some?
    requires exit.Finished? ==>
               |its| == NonNeg(t.count) && forall k :: 0 <= k < |its| ==> its[k].delivery.Delivered?
    requires exit.Broke? ==>
               |its| < t.count && Raised(stopAt, 2 * |its|)
               && (|its| > 0 ==> its[|its| - 1].delivery.Delivered?)
    requires exit.Threw? ==> |its| > 0 && its[|its| - 1].delivery == SendThrew(exit.message)
    requires r == Run(stopAt == Some(0), its, OutcomeOf(stopAt, its, exit))
    ensures StopLanded(r) <==> Raised(stopAt, LastClock(r.iterations))
    ensures r.outcome == Completed <==>
              && |r.iterations| == NonNeg(t.count)
              && (forall k :: 0 <= k < |r.iterations| ==> r.iterations[k].delivery.Delivered?)
              && !StopLanded(r)
    ensures r.outcome.Failed? <==> |r.iterations| > 0 && r.iterations[|r.iterations| - 1].delivery.SendThrew?
    ensures r.outcome.Failed? ==> r.outcome.message == r.iterations[|r.iterations| - 1].delivery.message
    ensures r.outcome == Halted <==> StopLanded(r) && !r.outcome.Failed?
  {
    LandedIffRaised(t, w, stopAt, its, exit.Broke?);
    assert StopLanded(r) == StopLanded(Run(stopAt == Some(0), its, Halted));
  }

  /**
   * A first send that throws ends the task with `onError` and the thrown
   * message, after that one attempt, unless the stop came during setup.
   */
  lemma FirstSendThrowFails(t: Task, w: World, stopAt: Option<nat>)
    requires w.setup == Ready && t.count > 0 && w.send(0).SendThrew?
    requires !Raised(stopAt, 0)
    ensures |Execute(t, w, stopAt).iterations| == 1
    ensures Execute(t, w, stopAt).outcome == Failed(w.send(0).message)
  {
    var r := Execute(t, w, stopAt);
    assert |r.iterations| > 0 ==> WellFormed(t, w, stopAt, 0, r.iterations[0]);
  }

  /**
   * Helper for Execute: which stops land, in terms of the loop's passes as
   * Loop describes them (well formed, every pass but the last paused, and
   * a break only on a raised flag).
   */
  lemma LandedIffRaised(t: Task, w: World, stopAt: Option<nat>, its: seq<Iteration>, broke: bool)
    requires forall k :: 0 <= k < |its| ==> WellFormed(t, w, stopAt, k, its[k])
    requires forall k :: 0 <= k < |its| - 1 ==> its[k].pause.Some?
    requires broke ==> |its| < t.count && Raised(stopAt, 2 * |its|)
                       && (|its| > 0 ==> its[|its| - 1].delivery.Delivered?)
    ensures StopLanded(Run(stopAt == Some(0), its, Halted)) <==> Raised(stopAt, LastClock(its))
    ensures broke ==> StopLanded(Run(stopAt == Some(0), its, Halted))
  {
    var r := Run(stopAt == Some(0), its, Halted);
    if |its| > 0 {
      var n := |its| - 1;
      assert WellFormed(t, w, stopAt, n, its[n]);
      if StopLanded(r) && stopAt != Some(0) {
        var k :| 0 <= k < |its| && (its[k].stopDuringSend || its[k].stopDuringPause);
        assert WellFormed(t, w, stopAt, k, its[k]);
      }
    }
  }
}

=== FILE: selfbot_trace.dfy ===
/**
 * The run of `startSendingMessages` seen as the sequence of things that
 * happen in order: sends started, stop calls arriving, `onProgress`,
 * sleeps, and the final `onComplete` or `onError`.
 */
module SelfbotTrace {
  import opened Js
  import opened Selfbot

  datatype Event =
    | StopArrived                      // `stopSendingMessages` ran and found the task registered
    | Sent(payload: string)            // `channel.send(payload)` was called
    | Progress(sent: int, total: int)  // `onProgress({ sent, total })`
    | Slept(ms: int)                   // `await sleep(delayMs)`
    | Complete                         // `onComplete()`
    | Error(message: string)           // `onError(error)`

  /** The events of pass j of the loop. */
  function PassEvents(t: Task, j: nat, it: Iteration): seq<Event>
  {
    [Sent(it.payload)]
    + (if it.stopDuringSend then [StopArrived] else [])
    + (if it.delivery.Delivered? then [Progress(j + 1, t.count)] else [])
    + (match it.pause
       case Some(ms) => [Slept(ms)] + (if it.stopDuringPause then [StopArrived] else [])
       case None => [])
  }

  /** The events of passes `from`, `from + 1`, ... */
  function PassesEvents(t: Task, its: seq<Iteration>, from: nat): seq<Event>
    decreases |its|
  {
    if its == [] then [] else PassEvents(t, from, its[0]) + PassesEvents(t, its[1..], from + 1)
  }

  function OutcomeEvents(o: Outcome): seq<Event>
  {
    match o
    case Completed => [Complete]
    case Failed(m) => [Error(m)]
    case Halted => []
  }

  /** Everything that happens from the registration of the task to its `finally`. */
  function Events(t: Task, r: Run): seq<Event>
  {
    (if r.stopDuringSetup then [StopArrived] else [])
    + PassesEvents(t, r.iterations, 0)
    + OutcomeEvents(r.outcome)
  }

  /** The `onProgress` reports among the events, in order. */
  function Progresses(es: seq<Event>): seq<Event>
  {
    if es == [] then []
    else (if es[0].Progress? then [es[0]] else []) + Progresses(es[1..])
  }

  // ---- shape of a run ----------------------------------------------------

  /**
   * The shape Execute gives its passes: every pass but the last was
   * delivered, paused, and saw no stop; a stop during a send rules out the
   * pause after it; a stop during a pause needs a pause.
   */
  ghost predicate Shaped(its: seq<Iteration>)
  {
    && (forall k :: 0 <= k < |its| - 1 ==>
          its[k].delivery.Delivered? && its[k].pause.Some? && !its[k].stopDuringSend && !its[k].stopDuringPause)
    && (forall k :: 0 <= k < |its| ==> (its[k].stopDuringPause ==> its[k].pause.Some?))
    && (|its| > 0 ==> (its[|its| - 1].stopDuringSend ==> its[|its| - 1].pause.None?))
  }

  /** Every run has that shape; a stop during setup means no pass ran. */
  lemma RunIsShaped(t: Task, w: World, stopAt: Option<nat>)
    ensures var r := Execute(t, w, stopAt);
            && Shaped(r.iterations)
            && (r.stopDuringSetup ==> r.iterations == [])
            && (r.outcome.Completed? || r.outcome.Halted? ==>
                  forall k :: 0 <= k < |r.iterations| ==> r.iterations[k].delivery.Delivered?)
  {
    var r := Execute(t, w, stopAt);
    if w.setup == Ready {
      var (its, exit) := Loop(t, w, stopAt, 0);
      assert r.iterations == its;
      LoopIsShaped(t, w, stopAt, its);
      assert r.stopDuringSetup && t.count > 0 ==> Raised(stopAt, 0);
    }
  }

  /** Passes as Loop describes them have the shape. */
  lemma LoopIsShaped(t: Task, w: World, stopAt: Option<nat>, its: seq<Iteration>)
    requires forall k :: 0 <= k < |its| ==> WellFormed(t, w, stopAt, k, its[k])
    requires forall k :: 0 <= k < |its| - 1 ==> its[k].pause.Some?
    ensures Shaped(its)
  {
    forall k | 0 <= k < |its| - 1
      ensures its[k].delivery.Delivered? && !its[k].stopDuringSend && !its[k].stopDuringPause
    {
      assert WellFormed(t, w, stopAt, k, its[k]);
      assert WellFormed(t, w, stopAt, k + 1, its[k + 1]);
    }
  }

  /** Dropping the first pass keeps the shape. */
  lemma ShapedTail(its: seq<Iteration>)
    requires Shaped(its) && |its| > 0
    ensures Shaped(its[1..])
  {
    var tail := its[1..];
    forall k | 0 <= k < |tail| ensures tail[k] == its[k + 1] { }
  }

  // ---- small facts about event sequences ---------------------------------

  /** No stop arrives among these events. */
  ghost predicate Quiet(es: seq<Event>)
  {
    forall a :: 0 <= a < |es| ==> !es[a].StopArrived?
  }

  /** Nothing that needs the task to go on: no send, no sleep, no (second) stop. */
  predicate Settled(e: Event)
  {
    !e.Sent? && !e.Slept? && !e.StopArrived?
  }

  /** After a stop arrives, no send starts, no sleep happens and no stop arrives again. */
  ghost predicate StopIsFinal(es: seq<Event>)
  {
    forall a, b :: 0 <= a < b < |es| && es[a].StopArrived? ==> Settled(es[b])
  }

  /** The callbacks that end a run come last. */
  ghost predicate CallbackLast(es: seq<Event>)
  {
    forall a :: 0 <= a < |es| && (es[a].Complete? || es[a].Error?) ==> a == |es| - 1
  }

  lemma StopIsFinalConcat(xs: seq<Event>, ys: seq<Event>)
    requires StopIsFinal(xs) && StopIsFinal(ys)
    requires Quiet(xs) || forall b :: 0 <= b < |ys| ==> Settled(ys[b])
    ensures StopIsFinal(xs + ys)
  {
    var zs := xs + ys;
    forall a, b | 0 <= a < b < |zs| && zs[a].StopArrived?
      ensures Settled(zs[b])
    {
      if b < |xs| {
        assert zs[a] == xs[a] && zs[b] == xs[b];
      } else if a >= |xs| {
        assert zs[a] == ys[a - |xs|] && zs[b] == ys[b - |xs|];
      } else {
        assert zs[a] == xs[a] && zs[b] == ys[b - |xs|];
      }
    }
  }

  lemma {:induction false} ProgressesConcat(xs: seq<Event>, ys: seq<Event>)
    ensures Progresses(xs + ys) == Progresses(xs) + Progresses(ys)
    decreases |xs|
  {
    if xs == [] {
      assert xs + ys == ys;
    } else {
      var zs := xs + ys;
      assert zs[0] == xs[0];
      assert zs[1..] == xs[1..] + ys;
      ProgressesConcat(xs[1..], ys);
    }
  }

  lemma {:induction false} NoProgressIn(es: seq<Event>)
    requires forall a :: 0 <= a < |es| ==> !es[a].Progress?
    ensures Progresses(es) == []
    decreases |es|
  {
    if es != [] {
      NoProgressIn(es[1..]);
    }
  }

  // ---- one pass ----------------------------------------------------------

  /** A pass reports progress once if its send was delivered, and not otherwise. */
  lemma PassProgress(t: Task, j: nat, it: Iteration)
    ensures Progresses(PassEvents(t, j, it))
            == (if it.delivery.Delivered? then [Progress(j + 1, t.count)] else [])
  {
    var head := [Sent(it.payload)] + (if it.stopDuringSend then [StopArrived] else []);
    var mid := if it.delivery.Delivered? then [Progress(j + 1, t.count)] else [];
    var tail := match it.pause
                case Some(ms) => [Slept(ms)] + (if it.stopDuringPause then [StopArrived] else [])
                case None => [];
    assert PassEvents(t, j, it) == head + mid + tail;
    ProgressesConcat(head + mid, tail);
    ProgressesConcat(head, mid);
    NoProgressIn(head);
    NoProgressIn(tail);
    if it.delivery.Delivered? {
      assert Progresses(mid) == [Progress(j + 1, t.count)] by {
        assert mid[1..] == [];
      }
    }
  }

  /** The events of one pass: no callback; a stop ends it unless it came during the send before progress. */
  lemma PassShape(t: Task, j: nat, it: Iteration)
    requires it.stopDuringSend ==> it.pause.None?
    requires it.stopDuringPause ==> it.pause.Some?
    ensures StopIsFinal(PassEvents(t, j, it))
    ensures forall a :: 0 <= a < |PassEvents(t, j, it)| ==>
              !PassEvents(t, j, it)[a].Complete? && !PassEvents(t, j, it)[a].Error?
    ensures !it.stopDuringSend && !it.stopDuringPause ==> Quiet(PassEvents(t, j, it))
  {
  }

  // ---- all passes --------------------------------------------------------

  lemma {:induction false} PassesShape(t: Task, its: seq<Iteration>, from: nat)
    requires Shaped(its)
    ensures StopIsFinal(PassesEvents(t, its, from))
    ensures forall a :: 0 <= a < |PassesEvents(t, its, from)| ==>
              !PassesEvents(t, its, from)[a].Complete? && !PassesEvents(t, its, from)[a].Error?
    decreases |its|
  {
    if its != [] {
      var head := PassEvents(t, from, its[0]);
      var rest := PassesEvents(t, its[1..], from + 1);
      ShapedTail(its);
      PassesShape(t, its[1..], from + 1);
      PassShape(t, from, its[0]);
      if |its| == 1 {
        assert its[1..] == [];
        assert rest == [];
        assert head + rest == head;
      } else {
        StopIsFinalConcat(head, rest);
      }
      assert PassesEvents(t, its, from) == head + rest;
    }
  }

  lemma {:induction false} PassesProgress(t: Task, its: seq<Iteration>, from: nat)
    requires Shaped(its)
    ensures var ps := Progresses(PassesEvents(t, its, from));
            && |ps| == |its| - (if |its| > 0 && !its[|its| - 1].delivery.Delivered? then 1 else 0)
            && forall j :: 0 <= j < |ps| ==> ps[j] == Progress(from + j + 1, t.count)
    decreases |its|
  {
    if its != [] {
      var head := PassEvents(t, from, its[0]);
      var rest := PassesEvents(t, its[1..], from + 1);
      ShapedTail(its);
      PassesProgress(t, its[1..], from + 1);
      PassProgress(t, from, its[0]);
      ProgressesConcat(head, rest);
      assert PassesEvents(t, its, from) == head + rest;
      var ph := Progresses(head);
      var pr := Progresses(rest);
      var ps := ph + pr;
      assert |its| > 1 ==> its[0].delivery.Delivered?;
      forall j | 0 <= j < |ps| ensures ps[j] == Progress(from + j + 1, t.count) {
        if j < |ph| {
          assert ps[j] == ph[j];
        } else {
          assert ps[j] == pr[j - |ph|];
        }
      }
    }
  }

  // ---- the whole run -----------------------------------------------------

  /** Callbacks of any run of the right shape. */
  lemma ShapedRunCallbacks(t: Task, r: Run)
    requires Shaped(r.iterations)
    ensures var es := Events(t, r);
            && CallbackLast(es)
            && (Complete in es <==> r.outcome == Completed)
            && (forall m :: Error(m) in es <==> r.outcome == Failed(m))
  {
    PassesShape(t, r.iterations, 0);
    var pre := if r.stopDuringSetup then [StopArrived] else [];
    var mid := PassesEvents(t, r.iterations, 0);
    var es := Events(t, r);
    assert es == (pre + mid) + OutcomeEvents(r.outcome);
    forall a | 0 <= a < |es| - |OutcomeEvents(r.outcome)|
      ensures !es[a].Complete? && !es[a].Error?
    {
      if a < |pre| {
        assert es[a] == pre[a];
      } else {
        assert es[a] == mid[a - |pre|];
      }
    }
  }

  /**
   * `onComplete` and `onError` never both fire, and whichever fires is the
   * last thing the task does; each fires exactly for its outcome.
   */
  lemma CallbacksAreExclusive(t: Task, w: World, stopAt: Option<nat>)
    ensures var es := Events(t, Execute(t, w, stopAt));
            && CallbackLast(es)
            && (Complete in es <==> Execute(t, w, stopAt).outcome == Completed)
            && (forall m :: Error(m) in es <==> Execute(t, w, stopAt).outcome == Failed(m))
  {
    RunIsShaped(t, w, stopAt);
    ShapedRunCallbacks(t, Execute(t, w, stopAt));
  }

  /** In any run of the right shape, nothing follows a stop but callbacks and reports. */
  lemma ShapedRunStopIsFinal(t: Task, r: Run)
    requires Shaped(r.iterations)
    requires r.stopDuringSetup ==> r.iterations == []
    ensures StopIsFinal(Events(t, r))
  {
    PassesShape(t, r.iterations, 0);
    var pre := if r.stopDuringSetup then [StopArrived] else [];
    var mid := PassesEvents(t, r.iterations, 0);
    var post := OutcomeEvents(r.outcome);
    StopIsFinalConcat(mid, post);
    if r.stopDuringSetup {
      assert mid == [];
      assert pre + mid + post == pre + post;
    }
    StopIsFinalConcat(pre, mid + post);
    assert Events(t, r) == pre + (mid + post);
  }

  /**
   * Once a stop has arrived, no further message is sent, no sleep happens
   * and no second stop finds the task.
   */
  lemma NothingStartsAfterStop(t: Task, w: World, stopAt: Option<nat>)
    ensures StopIsFinal(Events(t, Execute(t, w, stopAt)))
  {
    RunIsShaped(t, w, stopAt);
    ShapedRunStopIsFinal(t, Execute(t, w, stopAt));
  }

  /** Progress reports of any run of the right shape. */
  lemma RunProgress(t: Task, r: Run)
    requires Shaped(r.iterations)
    ensures var ps := Progresses(Events(t, r));
            var its := r.iterations;
            && |ps| == |its| - (if |its| > 0 && !its[|its| - 1].delivery.Delivered? then 1 else 0)
            && forall j :: 0 <= j < |ps| ==> ps[j] == Progress(j + 1, t.count)
  {
    PassesProgress(t, r.iterations, 0);
    var pre := if r.stopDuringSetup then [StopArrived] else [];
    var mid := PassesEvents(t, r.iterations, 0);
    var post := OutcomeEvents(r.outcome);
    assert Events(t, r) == (pre + mid) + post;
    ProgressesBetween(pre, mid, post);
  }

  /** Events without progress reports around a stretch add no report to it. */
  lemma ProgressesBetween(pre: seq<Event>, mid: seq<Event>, post: seq<Event>)
    requires forall a :: 0 <= a < |pre| ==> !pre[a].Progress?
    requires forall a :: 0 <= a < |post| ==> !post[a].Progress?
    ensures Progresses((pre + mid) + post) == Progresses(mid)
  {
    ProgressesConcat(pre + mid, post);
    ProgressesConcat(pre, mid);
    NoProgressIn(pre);
    NoProgressIn(post);
    assert Progresses(pre) + Progresses(mid) == Progresses(mid);
  }

  /**
   * `onProgress` reports sent = 1, 2, ... with no gap, always with
   * total = count, once per delivered message, and never more than count
   * times.
   */
  lemma ProgressCountsUp(t: Task, w: World, stopAt: Option<nat>)
    ensures var r := Execute(t, w, stopAt);
            var ps := Progresses(Events(t, r));
            && |ps| <= NonNeg(t.count)
            && |ps| == |r.iterations| - (if r.outcome.Failed? && w.setup == Ready then 1 else 0)
            && forall j :: 0 <= j < |ps| ==> ps[j] == Progress(j + 1, t.count)
  {
    var r := Execute(t, w, stopAt);
    RunIsShaped(t, w, stopAt);
    RunProgress(t, r);
    var its := r.iterations;
    assert (|its| > 0 && !its[|its| - 1].delivery.Delivered?) <==> (r.outcome.Failed? && w.setup == Ready);
  }
}

=== FILE: single_send.dfy ===
/**
 * The single send handler (`functions/api/send-message.js`,
 * `onRequestPost`): validate, make exactly one Discord send, and map its
 * outcome to a response.
 */
module SingleSend {
  import opened Js
  import opened Request
  import opened Http
  import Discord
  import opened Quotes
  import BatchSend

  /** The one send attempt made (if any) and the response returned. */
  datatype Outcome = Outcome(attempt: Option<string>, response: Response)

  /**
   * `onRequestPost` given the quote API's and Discord's answers. A valid
   * request makes exactly one attempt; its outcome decides the response.
   */
  function Handle(req: Incoming, quote: QuoteReply, reply: Discord.Reply): (r: Outcome)
    ensures req.Unparsable? ==> r == Outcome(None, InternalServerError())
    ensures req.Json? && MissingBasics(req.fields) ==>
              r == Outcome(None, Response(400, Failure(MissingFieldsError)))
    ensures req.Json? && !MissingBasics(req.fields) ==>
              && r.attempt.Some?
              && (req.fields.randomize ==> r.attempt.value == RandomQuote(quote))
              && (!req.fields.randomize ==> r.attempt.value == req.fields.message)
    ensures req.Json? && !MissingBasics(req.fields) && Discord.Ok(reply) ==>
              r.response == Response(200, Delivered(r.attempt.value))
    ensures req.Json? && !MissingBasics(req.fields) && Discord.Rejected(reply) ==>
              r.response == Discord.RejectionResponse(reply.status, reply.statusText, reply.body)
    ensures req.Json? && !MissingBasics(req.fields) && Discord.Rejected(reply)
            && Discord.FriendlyError(reply.statusText, reply.body).Some? && Constructible(reply.status) ==>
              && r.response.status == reply.status
              && r.response.body.Failure?
              && Discord.ReasonOf(r.response.body.error) == Discord.FriendlyError(reply.statusText, reply.body)
    ensures req.Json? && !MissingBasics(req.fields) && Discord.Rejected(reply)
            && (Discord.FriendlyError(reply.statusText, reply.body).None? || !Constructible(reply.status)) ==>
              r.response == InternalServerError()
    ensures reply.NetworkFailure? && req.Json? && !MissingBasics(req.fields) ==>
              r.response == InternalServerError()
    ensures IsSuccess(r.response) <==> req.Json? && !MissingBasics(req.fields) && Discord.Ok(reply)
  {
    match req
    case Unparsable => Outcome(None, InternalServerError())
    case Json(f) =>
      if MissingBasics(f) then Outcome(None, Response(400, Failure(MissingFieldsError)))
      else
        var payload := if f.randomize then RandomQuote(quote) else f.message;
        Outcome(Some(payload), Answer(payload, reply))
  }

  /**
   * The response for the one send, given what Discord answered: the sent
   * content on success, a 500 when `fetch` threw, and for a rejection
   * Discord's status with its reason, unless rendering the reason or
   * answering with that status throws, which also ends in a 500.
   */
  function Answer(payload: string, reply: Discord.Reply): (r: Response)
    ensures Discord.Ok(reply) ==> r == Response(200, Delivered(payload))
    ensures reply.NetworkFailure? ==> r == InternalServerError()
    ensures Discord.Rejected(reply) && Discord.FriendlyError(reply.statusText, reply.body).Some?
            && Constructible(reply.status) ==>
              && r.status == reply.status
              && r.body.Failure?
              && Discord.ReasonOf(r.body.error) == Discord.FriendlyError(reply.statusText, reply.body)
    ensures Discord.Rejected(reply)
            && (Discord.FriendlyError(reply.statusText, reply.body).None? || !Constructible(reply.status)) ==>
              r == InternalServerError()
    ensures IsSuccess(r) <==> Discord.Ok(reply)
  {
    match reply
    case NetworkFailure => InternalServerError()
    case Response(status, statusText, body) =>
      if Discord.Ok(reply) then Response(200, Delivered(payload))
      else Discord.RejectionResponse(status, statusText, body)
  }

  /**
   * A rejection whose `message` is an object with its own `toString`: the
   * template literal throws, and the client gets a 500 instead of Discord's
   * status.
   */
  lemma UnrenderableReasonIsInternalError(payload: string, status: int, statusText: string)
    requires !(200 <= status <= 299)
    ensures var body := Discord.Parsed(JObject(map["message" := JObject(map["toString" := JNumber(1)])]));
            Answer(payload, Discord.Response(status, statusText, body)) == InternalServerError()
  {
    Discord.OwnToStringThrows(statusText);
  }

  /** The batch world in which attempt 0 meets the given quote and reply. */
  function OneShotWorld(quote: QuoteReply, reply: Discord.Reply): BatchSend.World
  {
    BatchSend.FetchedWorld(k => reply, k => quote, k => Randomness.Ratio(0, 1))
  }

  /**
   * The single handler behaves as the batch handler asked for one message:
   * the same payload goes out, and a rejected or failed send gets the same
   * response. Only the success body differs (`contentSent` against
   * `sent`/`total`).
   */
  lemma AgreesWithBatchOfOne(f: Fields, quote: QuoteReply, reply: Discord.Reply)
    requires !MissingBasics(f)
    requires BatchSend.ValidWindow(BatchSend.PlanOf(f.(count := Some(1))))
    ensures var single := Handle(Json(f), quote, reply);
            var batch := BatchSend.Handle(Json(f.(count := Some(1))), OneShotWorld(quote, reply));
            && |batch.steps| == 1
            && single.attempt == Some(batch.steps[0].payload)
            && (!Discord.Ok(reply) ==> single.response == batch.response)
            && (Discord.Ok(reply) ==> batch.response == Response(200, BatchSummary(1, 1)))
  {
    var g := f.(count := Some(1));
    var w := OneShotWorld(quote, reply);
    if Discord.Ok(reply) {
      BatchSend.AllAccepted(Json(g), w);
    } else if reply.NetworkFailure? {
      BatchSend.SendThrows(Json(g), w, 0);
    }
  }
}

=== FILE: task_lifecycle.dfy ===
/**
 * One selfbot task from the start request to its `finally`, as the status
 * endpoint sees it: the server state after the start handler, each event of
 * the task's run applied in order (including a stop request, if it arrived
 * while the task was registered), and the registry cleanup at the end.
 *
 * Other tasks' events are not interleaved here: they touch other keys of
 * the same maps only (barring a start in the same millisecond).
 */
module TaskLifecycle {
  import opened Js
  import opened Request
  import Registry
  import Selfbot
  import opened SelfbotTrace
  import TaskServer

  type TaskId = Registry.TaskId

  /** What one event of the task does to the server state. */
  function Apply(s: TaskServer.State, id: TaskId, e: Event): TaskServer.State
  {
    match e
    case StopArrived => TaskServer.Stop(s, id).0
    case Progress(sent, total) => TaskServer.Notify(s, id, TaskServer.OnProgress(sent, total))
    case Complete => TaskServer.Notify(s, id, TaskServer.OnComplete)
    case Error(m) => TaskServer.Notify(s, id, TaskServer.OnError(m))
    case Sent(_) => s
    case Slept(_) => s
  }

  /** The events applied in order. */
  function Replay(s: TaskServer.State, id: TaskId, es: seq<Event>): TaskServer.State
    decreases |es|
  {
    if es == [] then s else Apply(Replay(s, id, es[..|es| - 1]), id, es[|es| - 1])
  }

  /** The record written by the last event that writes one, if any. */
  function LastWrite(es: seq<Event>): Option<TaskServer.Record>
    decreases |es|
  {
    if es == [] then None
    else
      match es[|es| - 1]
      case StopArrived => Some(TaskServer.Stopped)
      case Progress(sent, total) => Some(TaskServer.Running(sent, total))
      case Complete => Some(TaskServer.Completed)
      case Error(m) => Some(TaskServer.Errored(m))
      case Sent(_) => LastWrite(es[..|es| - 1])
      case Slept(_) => LastWrite(es[..|es| - 1])
  }

  /** The task's `finally`: `activeOperations.delete(taskId)`. */
  function Finish(s: TaskServer.State, id: TaskId): TaskServer.State
  {
    TaskServer.State(s.tasks, Registry.Cleanup(s.active, id))
  }

  /** A valid start, the task's whole run, and its cleanup. */
  function Lifetime(s: TaskServer.State, f: Fields, now: TaskId, w: Selfbot.World, stopAt: Option<nat>): TaskServer.State
    requires !MissingBasicsOrCount(f)
  {
    var t := TaskServer.TaskOf(f);
    var s1 := TaskServer.Start(s, f, now).0;
    Finish(Replay(s1, now, Events(t, Selfbot.Execute(t, w, stopAt))), now)
  }

  /**
   * The record left behind by a finished task: `completed` after
   * `onComplete`, `error` after `onError`; after a stop, `stopped`, unless
   * the stop arrived while a message was being sent: then the progress
   * report of that message comes after it and the record stays `running`.
   */
  function FinalRecord(t: Selfbot.Task, r: Selfbot.Run): (rec: TaskServer.Record)
    ensures rec == TaskServer.Completed <==> r.outcome == Selfbot.Completed
    ensures rec.Errored? <==> r.outcome.Failed?
    ensures rec.Errored? ==> rec.error == r.outcome.message
    ensures rec.Running? <==>
              r.outcome == Selfbot.Halted && |r.iterations| > 0 && r.iterations[|r.iterations| - 1].stopDuringSend
    ensures rec.Running? ==> rec == TaskServer.Running(|r.iterations|, t.count)
    ensures !rec.Started?
  {
    match r.outcome
    case Completed => TaskServer.Completed
    case Failed(m) => TaskServer.Errored(m)
    case Halted =>
      if |r.iterations| > 0 && r.iterations[|r.iterations| - 1].stopDuringSend
      then TaskServer.Running(|r.iterations|, t.count)
      else TaskServer.Stopped
  }

  // ---- replay ------------------------------------------------------------

  /**
   * Replaying a task's events leaves its key holding the last record
   * written (last write wins), provided the task is registered and at most
   * one stop arrives; no other key changes.
   */
  lemma {:induction false} ReplayKeepsLastWrite(s: TaskServer.State, id: TaskId, es: seq<Event>)
    requires id in s.active && id in s.tasks
    requires StopIsFinal(es)
    ensures var s' := Replay(s, id, es);
            && id in s'.tasks
            && s'.tasks[id] == (if LastWrite(es).Some? then LastWrite(es).value else s.tasks[id])
            && s'.tasks - {id} == s.tasks - {id}
            && (Quiet(es) ==> id in s'.active)
            && s'.active - {id} == s.active - {id}
    decreases |es|
  {
    if es != [] {
      var init := es[..|es| - 1];
      var e := es[|es| - 1];
      assert StopIsFinal(init) by {
        forall a, b | 0 <= a < b < |init| && init[a].StopArrived?
          ensures Settled(init[b])
        {
          assert es[a] == init[a] && es[b] == init[b];
        }
      }
      ReplayKeepsLastWrite(s, id, init);
      var mid := Replay(s, id, init);
      if Quiet(es) {
        assert Quiet(init) by {
          forall a | 0 <= a < |init| ensures !init[a].StopArrived? {
            assert es[a] == init[a];
          }
        }
      }
      if e.StopArrived? {
        assert Quiet(init) by {
          forall a | 0 <= a < |init| ensures !init[a].StopArrived? {
            assert es[a] == init[a];
          }
        }
        assert id in mid.active;
      }
      var s' := Apply(mid, id, e);
      assert s'.tasks - {id} == mid.tasks - {id};
    }
  }

  lemma {:induction false} LastWriteConcat(xs: seq<Event>, ys: seq<Event>)
    ensures LastWrite(xs + ys) == if LastWrite(ys).Some? then LastWrite(ys) else LastWrite(xs)
    decreases |ys|
  {
    if ys == [] {
      assert xs + ys == xs;
    } else {
      var zs := xs + ys;
      assert zs[..|zs| - 1] == xs + ys[..|ys| - 1];
      assert zs[|zs| - 1] == ys[|ys| - 1];
      LastWriteConcat(xs, ys[..|ys| - 1]);
    }
  }

  /** A delivered pass ends by writing `stopped` (a stop during its pause) or its progress report. */
  lemma LastWriteOfPass(t: Selfbot.Task, j: nat, it: Selfbot.Iteration)
    requires it.delivery.Delivered?
    requires it.stopDuringSend ==> it.pause.None?
    requires it.stopDuringPause ==> it.pause.Some?
    ensures LastWrite(PassEvents(t, j, it))
            == Some(if it.stopDuringPause then TaskServer.Stopped else TaskServer.Running(j + 1, t.count))
  {
    var head := [Sent(it.payload)] + (if it.stopDuringSend then [StopArrived] else []);
    var mid := [Progress(j + 1, t.count)];
    var tail := match it.pause
                case Some(ms) => [Slept(ms)] + (if it.stopDuringPause then [StopArrived] else [])
                case None => [];
    assert PassEvents(t, j, it) == (head + mid) + tail;
    LastWriteConcat(head + mid, tail);
    LastWriteConcat(head, mid);
    assert mid[..0] == [];
    if it.pause.Some? {
      var tl := tail;
      if it.stopDuringPause {
        assert tl[..1] == [Slept(it.pause.value)];
      } else {
        assert tl[..0] == [];
      }
    }
  }

  lemma {:induction false} LastWriteOfPasses(t: Selfbot.Task, its: seq<Selfbot.Iteration>, from: nat)
    requires Shaped(its) && |its| > 0
    requires its[|its| - 1].delivery.Delivered?
    ensures LastWrite(PassesEvents(t, its, from))
            == LastWrite(PassEvents(t, from + |its| - 1, its[|its| - 1]))
    ensures LastWrite(PassesEvents(t, its, from)).Some?
    decreases |its|
  {
    var head := PassEvents(t, from, its[0]);
    var rest := PassesEvents(t, its[1..], from + 1);
    assert PassesEvents(t, its, from) == head + rest;
    var n := |its| - 1;
    LastWriteOfPass(t, from + n, its[n]);
    if |its| == 1 {
      assert rest == [];
      assert head + rest == head;
    } else {
      var tail := its[1..];
      ShapedTail(its);
      assert tail[|tail| - 1] == its[n];
      LastWriteOfPasses(t, tail, from + 1);
      LastWriteConcat(head, rest);
    }
  }

  /** A halted run's events end by writing its final record. */
  lemma HaltedLastWrite(t: Selfbot.Task, r: Selfbot.Run)
    requires Shaped(r.iterations)
    requires r.outcome == Selfbot.Halted && Selfbot.StopLanded(r)
    requires forall k :: 0 <= k < |r.iterations| ==> r.iterations[k].delivery.Delivered?
    requires r.stopDuringSetup ==> r.iterations == []
    ensures LastWrite(Events(t, r)) == Some(FinalRecord(t, r))
  {
    var pre := if r.stopDuringSetup then [StopArrived] else [];
    var mid := PassesEvents(t, r.iterations, 0);
    assert Events(t, r) == (pre + mid) + [];
    assert (pre + mid) + [] == pre + mid;
    LastWriteConcat(pre, mid);
    var its := r.iterations;
    if |its| == 0 {
      assert pre[..0] == [];
    } else {
      var n := |its| - 1;
      LastWriteOfPasses(t, its, 0);
      var k :| 0 <= k < |its| && (its[k].stopDuringSend || its[k].stopDuringPause);
      assert k == n;
    }
  }

  /** A run of the shape every execution has ends its events by writing its final record. */
  lemma ShapedRunLastWrite(t: Selfbot.Task, r: Selfbot.Run)
    requires Shaped(r.iterations)
    requires r.stopDuringSetup ==> r.iterations == []
    requires r.outcome.Halted? ==> Selfbot.StopLanded(r)
                                   && forall k :: 0 <= k < |r.iterations| ==> r.iterations[k].delivery.Delivered?
    ensures LastWrite(Events(t, r)) == Some(FinalRecord(t, r))
  {
    if r.outcome.Halted? {
      HaltedLastWrite(t, r);
    } else {
      var pre := if r.stopDuringSetup then [StopArrived] else [];
      var mid := PassesEvents(t, r.iterations, 0);
      var cb := if r.outcome.Completed? then Complete else Error(r.outcome.message);
      assert OutcomeEvents(r.outcome) == [cb];
      assert Events(t, r) == (pre + mid) + [cb];
      LastWriteOfCallback(pre + mid, cb);
    }
  }

  /** Events that end with `onComplete` or `onError` end by writing its record. */
  lemma LastWriteOfCallback(es: seq<Event>, cb: Event)
    requires cb.Complete? || cb.Error?
    ensures LastWrite(es + [cb])
            == Some(if cb.Complete? then TaskServer.Completed else TaskServer.Errored(cb.message))
  {
    var zs := es + [cb];
    assert zs[|zs| - 1] == cb;
  }

  /** Every run's events end by writing its final record. */
  lemma RunLastWrite(t: Selfbot.Task, w: Selfbot.World, stopAt: Option<nat>)
    ensures var r := Selfbot.Execute(t, w, stopAt);
            LastWrite(Events(t, r)) == Some(FinalRecord(t, r))
  {
    RunIsShaped(t, w, stopAt);
    ShapedRunLastWrite(t, Selfbot.Execute(t, w, stopAt));
  }

  // ---- the theorem -------------------------------------------------------

  /**
   * Helper for FinalStatus: after a valid start, replaying events in which
   * nothing follows a stop and then cleaning up leaves the last record
   * written under the task's key, touches no other record, and leaves
   * nothing to stop.
   */
  lemma StartReplayFinish(s: TaskServer.State, f: Fields, now: TaskId, es: seq<Event>, rec: TaskServer.Record)
    requires !MissingBasicsOrCount(f)
    requires StopIsFinal(es) && LastWrite(es) == Some(rec)
    ensures var s' := Finish(Replay(TaskServer.Start(s, f, now).0, now, es), now);
            && TaskServer.Status(s', now) == TaskServer.Reply(200, TaskServer.Snapshot(rec))
            && s'.tasks - {now} == s.tasks - {now}
            && now !in s'.active
            && TaskServer.Stop(s', now) == (s', TaskServer.Reply(404, TaskServer.Failure(TaskServer.StopNotFound)))
  {
    var s1 := TaskServer.Start(s, f, now).0;
    assert now in s1.active && now in s1.tasks;
    assert s1.tasks - {now} == s.tasks - {now};
    ReplayKeepsLastWrite(s1, now, es);
  }

  /**
   * Once a task has run to its `finally`, the status endpoint shows its
   * final record, no other task's record has changed, and the task can no
   * longer be stopped.
   */
  lemma FinalStatus(s: TaskServer.State, f: Fields, now: TaskId, w: Selfbot.World, stopAt: Option<nat>)
    requires !MissingBasicsOrCount(f)
    ensures var t := TaskServer.TaskOf(f);
            var s' := Lifetime(s, f, now, w, stopAt);
            && TaskServer.Status(s', now)
               == TaskServer.Reply(200, TaskServer.Snapshot(FinalRecord(t, Selfbot.Execute(t, w, stopAt))))
            && s'.tasks - {now} == s.tasks - {now}
            && now !in s'.active
            && TaskServer.Stop(s', now) == (s', TaskServer.Reply(404, TaskServer.Failure(TaskServer.StopNotFound)))
  {
    var t := TaskServer.TaskOf(f);
    var r := Selfbot.Execute(t, w, stopAt);
    var es := Events(t, r);
    NothingStartsAfterStop(t, w, stopAt);
    RunLastWrite(t, w, stopAt);
    StartReplayFinish(s, f, now, es, FinalRecord(t, r));
  }

  /**
   * Helper for StopDuringSendRun, over the passes as Loop describes them:
   * with every send delivered and a stop during send j, the loop makes
   * exactly j + 1 passes.
   */
  lemma StopDuringSendPasses(t: Selfbot.Task, w: Selfbot.World, j: nat, its: seq<Selfbot.Iteration>, exit: Selfbot.Exit)
    requires j < t.count
    requires forall i: nat :: w.send(i) == Selfbot.Delivered
    requires forall k :: 0 <= k < |its| ==> Selfbot.WellFormed(t, w, Some(Selfbot.SendClock(j)), k, its[k])
    requires exit.Finished? ==> |its| == t.count
    requires exit.Broke? ==> |its| < t.count && Selfbot.Raised(Some(Selfbot.SendClock(j)), 2 * |its|)
    requires exit.Threw? ==> |its| > 0 && its[|its| - 1].delivery == Selfbot.SendThrew(exit.message)
    ensures |its| == j + 1 && its[j].stopDuringSend && !exit.Threw?
  {
    assert |its| > 0;
    assert Selfbot.WellFormed(t, w, Some(Selfbot.SendClock(j)), |its| - 1, its[|its| - 1]);
    assert j < |its| ==> Selfbot.WellFormed(t, w, Some(Selfbot.SendClock(j)), j, its[j]);
  }

  /**
   * With every send delivered, a stop raised while send j is awaited halts
   * the run after that send, and its progress report, written after
   * `stopped`, is the final record: `running` with j + 1 of `count` sent.
   */
  lemma StopDuringSendRun(t: Selfbot.Task, w: Selfbot.World, j: nat)
    requires j < t.count
    requires w.setup == Selfbot.Ready
    requires forall i: nat :: w.send(i) == Selfbot.Delivered
    ensures FinalRecord(t, Selfbot.Execute(t, w, Some(Selfbot.SendClock(j)))) == TaskServer.Running(j + 1, t.count)
  {
    var stopAt := Some(Selfbot.SendClock(j));
    var r := Selfbot.Execute(t, w, stopAt);
    var (its, exit) := Selfbot.Loop(t, w, stopAt, 0);
    assert r.iterations == its;
    StopDuringSendPasses(t, w, j, its, exit);
  }

  /**
   * A stop that arrives while message j is being sent is acknowledged, but
   * the progress report of that message is written after `stopped`: the
   * status stays `running` with j + 1 of `count` sent for good, and
   * `onComplete` never fires. For the last message this reads
   * sent == total.
   */
  lemma StopDuringSendShowsRunning(s: TaskServer.State, f: Fields, now: TaskId, w: Selfbot.World, j: nat)
    requires !MissingBasicsOrCount(f) && j < f.count.value
    requires w.setup == Selfbot.Ready
    requires forall i: nat :: w.send(i) == Selfbot.Delivered
    ensures TaskServer.Status(Lifetime(s, f, now, w, Some(Selfbot.SendClock(j))), now)
            == TaskServer.Reply(200, TaskServer.Snapshot(TaskServer.Running(j + 1, f.count.value)))
  {
    var t := TaskServer.TaskOf(f);
    StopDuringSendRun(t, w, j);
    FinalStatus(s, f, now, w, Some(Selfbot.SendClock(j)));
  }
}

=== FILE: task_server.dfy ===
/**
 * The Express server of the selfbot back end (`backend/server.js`): the
 * start, status and stop endpoints, and the `activeTasks` map that the
 * task's callbacks write into.
 */
module TaskServer {
  import opened Js
  import opened Request
  import Registry
  import Selfbot

  type TaskId = Registry.TaskId

  /** A value of `activeTasks`: what `GET /api/status/:taskId` returns. */
  datatype Record =
    | Started(total: int, sent: int)   // `{ status: 'started', total: count, sent: 0 }`
    | Running(sent: int, total: int)   // `{ status: 'running', ...progress }`
    | Completed                        // `{ status: 'completed' }`
    | Errored(error: string)           // `{ status: 'error', error: err.message }`
    | Stopped                          // `{ status: 'stopped' }`

  /** The server's memory: `activeTasks`, and `activeOperations` of the client module. */
  datatype State = State(tasks: map<TaskId, Record>, active: Registry.Active)

  datatype Body =
    | Launched(taskId: TaskId)     // `{ success: true, taskId, message: 'Message sequence started' }`
    | Snapshot(record: Record)     // the stored record itself
    | Failure(error: string)       // `{ error }`
    | StopAcknowledged             // `{ success: true, message: 'Task stopped' }`

  datatype Reply = Reply(status: int, body: Body)

  /** The three callbacks handed to `startSendingMessages`. */
  datatype Callback = OnProgress(sent: int, total: int) | OnComplete | OnError(message: string)

  const DefaultDelayMs: int := 2000
  const TaskNotFound: string := "Task not found"
  const StopNotFound: string := "Task not found or already stopped"

  /** The arguments `startSendingMessages` receives from a valid start request. */
  function TaskOf(f: Fields): Selfbot.Task
    requires f.count.Some?
  {
    Selfbot.Task(f.message, f.count.value, DefaultTo(f.delayMs, DefaultDelayMs), f.randomize)
  }

  /**
   * `POST /api/send-message` at clock reading `now`. An incomplete request
   * is refused with nothing recorded; otherwise the task registers itself
   * (synchronously, before its first await) and is recorded as started
   * with `count` as total, under the new id.
   */
  function Start(s: State, f: Fields, now: TaskId): (r: (State, Reply))
    ensures MissingBasicsOrCount(f) ==> r == (s, Reply(400, Failure(MissingFieldsError)))
    ensures !MissingBasicsOrCount(f) ==>
              && r.1 == Reply(200, Launched(now))
              && now in r.0.tasks && r.0.tasks[now] == Started(f.count.value, 0)
              && now in r.0.active
              && (forall id :: id != now ==> (id in r.0.tasks <==> id in s.tasks))
              && (forall id :: id != now && id in s.tasks ==> r.0.tasks[id] == s.tasks[id])
              && (forall id :: id != now ==> (id in r.0.active <==> id in s.active))
  {
    if MissingBasicsOrCount(f) then (s, Reply(400, Failure(MissingFieldsError)))
    else
      var active := Registry.Register(s.active, now);
      (State(s.tasks[now := Started(f.count.value, 0)], active), Reply(200, Launched(now)))
  }

  /** `GET /api/status/:taskId`: a 404 for an unknown id, the stored record untouched otherwise. */
  function Status(s: State, id: TaskId): (r: Reply)
    ensures id !in s.tasks <==> r == Reply(404, Failure(TaskNotFound))
    ensures id in s.tasks ==> r == Reply(200, Snapshot(s.tasks[id]))
    ensures r.status == 200 <==> id in s.tasks
  {
    if id in s.tasks then Reply(200, Snapshot(s.tasks[id])) else Reply(404, Failure(TaskNotFound))
  }

  /**
   * `POST /api/stop/:taskId`: records `stopped` only when the registry stop
   * succeeds; otherwise a 404 with the state untouched.
   */
  function Stop(s: State, id: TaskId): (r: (State, Reply))
    ensures id in s.active ==>
              && r.1 == Reply(200, StopAcknowledged)
              && r.0.tasks == s.tasks[id := Stopped]
              && id !in r.0.active
    ensures id !in s.active ==> r == (s, Reply(404, Failure(StopNotFound)))
    ensures forall other :: other != id ==> (other in r.0.active <==> other in s.active)
  {
    var (found, active) := Registry.Stop(s.active, id);
    if found then (State(s.tasks[id := Stopped], active), Reply(200, StopAcknowledged))
    else (s, Reply(404, Failure(StopNotFound)))
  }

  /** Which callback writes a record, if any: `started` and `stopped` come from the endpoints. */
  function WriterOf(rec: Record): Option<Callback>
  {
    match rec
    case Running(sent, total) => Some(OnProgress(sent, total))
    case Completed => Some(OnComplete)
    case Errored(m) => Some(OnError(m))
    case Started(_, _) => None
    case Stopped => None
  }

  /** The record each callback writes: never `started` or `stopped`, and it tells which callback wrote it. */
  function Written(cb: Callback): (r: Record)
    ensures WriterOf(r) == Some(cb)
    ensures !r.Started? && !r.Stopped?
  {
    match cb
    case OnProgress(sent, total) => Running(sent, total)
    case OnComplete => Completed
    case OnError(m) => Errored(m)
  }

  /**
   * `activeTasks.set(taskId, ...)` from inside a callback: no check of what
   * was there. The task's key holds the callback's record afterwards, every
   * other key is as it was, and the registry is untouched.
   */
  function Notify(s: State, id: TaskId, cb: Callback): (r: State)
    ensures id in r.tasks && r.tasks[id] == Written(cb)
    ensures forall k :: k != id ==> (k in r.tasks <==> k in s.tasks)
    ensures forall k :: k != id && k in s.tasks ==> r.tasks[k] == s.tasks[k]
    ensures r.active == s.active
  {
    State(s.tasks[id := Written(cb)], s.active)
  }

  /**
   * No record is final: whatever `id` held before (`stopped`, `completed`,
   * anything, or nothing), a callback replaces it, and touches nothing else.
   */
  lemma NoRecordIsFinal(s1: State, s2: State, id: TaskId, cb: Callback)
    requires s1.tasks - {id} == s2.tasks - {id}
    ensures Notify(s1, id, cb).tasks == Notify(s2, id, cb).tasks
    ensures Notify(s1, id, cb).active == s1.active
  {
    var a, b := Notify(s1, id, cb).tasks, Notify(s2, id, cb).tasks;
    assert a.Keys == b.Keys by {
      forall k ensures k in a <==> k in b {
        if k != id {
          assert k in s1.tasks - {id} <==> k in s2.tasks - {id};
        }
      }
    }
    forall k | k in a
      ensures a[k] == b[k]
    {
      if k != id {
        assert (s1.tasks - {id})[k] == (s2.tasks - {id})[k];
      }
    }
  }

  /** In particular a late error or progress report replaces `stopped` and `completed`. */
  lemma LateCallbackOverwrites(s: State, id: TaskId, cb: Callback)
    requires id in s.tasks && (s.tasks[id] == Stopped || s.tasks[id] == Completed)
    ensures Status(Notify(s, id, cb), id) == Reply(200, Snapshot(Written(cb)))
    ensures cb.OnProgress? ==> Status(Notify(s, id, cb), id).body.record.Running?
  {
  }

  /** A valid start is readable at once, and two reads with no write between agree. */
  lemma StartThenStatus(s: State, f: Fields, now: TaskId)
    requires !MissingBasicsOrCount(f)
    ensures Status(Start(s, f, now).0, now) == Reply(200, Snapshot(Started(f.count.value, 0)))
  {
  }

  /** Right after a valid start, a stop succeeds once and then fails, leaving `stopped` in place. */
  lemma StartStopStop(s: State, f: Fields, now: TaskId)
    requires !MissingBasicsOrCount(f)
    ensures var s1 := Start(s, f, now).0;
            var (s2, first) := Stop(s1, now);
            var (s3, second) := Stop(s2, now);
            && first == Reply(200, StopAcknowledged)
            && second == Reply(404, Failure(StopNotFound))
            && s3 == s2
            && Status(s3, now) == Reply(200, Snapshot(Stopped))
  {
  }
}
